=== FILE: README.md ===
# doodlz, modelled in Dafny

doodlz is a multiplayer drawing-and-guessing game. One player, the host, draws on a canvas.
Every pointer sample is broadcast to the room as a `draw_point` envelope, and each finished
gesture is broadcast as a `stroke`. The other players guess in a chat panel. The server relays
envelopes, keeps each room's stroke history, and sends a late joiner a `game_state` snapshot,
which the client replays point by point.

This project models the client's drawing-sync engine and the helpers it calls. It also models
three small parts of the rest of the repository: the start menu's keyboard cycle, the server's
word-bank parser and the room-link extractor.

- **Canvas** (`canvas.dfy`): a 2D context is the log of the calls made on it. `Trace` reads a
  log as the points the pen visits, each with the style in force at that visit. `SinceClear`
  is the part of the log drawn since the last wipe. `Trace` records visits only: whether a
  visit moves or draws a line, and where `stroke()` is called, are stated by the call lists
  themselves (`Replay.PathOps`, `Replay.StrokeOps`, `Replay.StepCalls`).
- **Types** (`types.dfy`): points, strokes, players, the twelve envelope tags, and the three
  chat/guess message shapes.
- **Normalize** (`normalize.dfy`): turns an inbound chat or guess envelope into a chat-panel
  message, unwrapping the legacy `message` wrapper.
- **DrawPoint, SendPoint, CanvasUtils**: the per-point painter, the `draw_point` encoder, and
  the wipe and clear-all helpers.
- **Replay** (`replay.dfy`): the two replays of a stroke history as the call sequences they make.
  - The instant replay is used after an undo.
  - The paced replay is used on `game_state`. It is a stepper over a cursor (stroke index,
    point index), with the number of points still to paint as its termination measure.
  - Lemmas say what either replay puts on the canvas.
- **GameEngine** (`game.dfy`): class `Game`, the component's state and its event handlers.
  - Its fields are the stroke history, the roster, the chat, the stroke in progress, the host
    and drawing flags, and the viewer's pen.
  - It holds references to the canvas, its context and the socket, any of which may be
    missing.
  - Each handler states its whole new state, the canvas calls it made and the envelopes it
    sent.
- **Menu** (`menu.dfy`): the start menu's selection counter, Enter dispatch, and the join
  prompt's guard.
- **WordBank** (`wordbank.dfy`): `loadWords` and `GetRandomWord`. The file contents and the
  random index are inputs.
- **RoomLink** (`roomlink.dfy`): `extractRoomIdFromLink`, over the parts of an already-parsed
  URL.
- **Text** (`text.dfy`): the library string routines used above, written out.
  - JavaScript's `trim`.
  - Go's `strings.TrimSpace`, `Split`, `Contains` and `TrimPrefix`.

Points worth knowing, each following the code:

- **Socket-triggered replays restore the pen of the moment the socket was opened.** The
  socket's `onmessage` handler is attached in the effect that opens the socket, which is keyed
  on `roomId` (frontend/src/Game.tsx:42-64, attached at line 61). So the replays started from it
  (`undo`, `game_state`) use the `strokeColor` and `strokeWidth` of the render in which that
  effect last ran. The model covers one room, where the effect runs once, on mount: the
  replays put back `"#000000"` and width 6 (`GameEngine.MountPen`), not the pen the viewer has
  selected since. The comment at frontend/src/Game.tsx:151 says "restore current
  selection". The model follows the code.
- **The paced replay throws on some histories.** It reads `strokes[s]` and `paths[p]`
  unguarded.
  - An empty history throws on its first step before that step makes any call on the context
    (the wipe has already been made).
  - A stroke without points stops the replay there, after its style has been set and a path
    begun (`Replay.Step`).
  - The outcome `Crash` stands for that TypeError. `Replay.PacedTrace` states exactly which
    points are painted and which style is left active.
  - When every stroke has points, the two replays agree (`Replay.ReplaysAgree`).
- **Host gating.** Pointer input and `undoLast` act only for the host. `clearAll` is not gated.
  `isHost` changes only on a `game_state` whose `hostId` is truthy.
- **The pen effect fires only on a change.** The context's style is reset from the pen by an
  effect keyed on `strokeColor` and `strokeWidth` (frontend/src/Game.tsx:67-72). Picking the
  pen already selected therefore makes no call, even when a replay has left another style
  active (`GameEngine.Game.SelectTool`).

## Model

| member | source | states |
|---|---|---|
| Types.ParseTag | frontend/src/types/types.ts:9-25 | a string parses to a tag only when it is that tag's wire spelling |
| Types.TagRoundTrip | frontend/src/types/types.ts:11-23 | every tag's spelling parses back to that tag, so the twelve spellings are distinct |
| Types.TagsClosed | frontend/src/types/types.ts:11-23 | a string is a tag exactly when it is one of the twelve spellings |
| Types.UiTagIsChatOrGuess | frontend/src/types/types.ts:27-49 | a chat-panel message is tagged `chat_msg`, `correct_guess` or `close_guess` and nothing else |
| Normalize.EffectiveTag | frontend/src/core/lib/normalizeUiMsg.ts:5 | the tag switched on is the envelope's own unless it is `message`; a `message` wrapper yields its inner type only when that is present and non-empty |
| Normalize.EffectivePayload | frontend/src/core/lib/normalizeUiMsg.ts:6 | the payload read is the envelope's own unless it is `message`; a `message` wrapper yields its inner data when present |
| Normalize.NormalizeInbound | frontend/src/core/lib/normalizeUiMsg.ts:3-37 | a message is produced exactly for the three chat/guess tags, and its type equals the effective tag; every other tag gives null |
| Normalize.LegacyUnwrap | frontend/src/core/lib/normalizeUiMsg.ts:4-6 | a `message` wrapper around tag T and data D normalises exactly as the direct envelope (T, D), whatever else the wrapper holds; a wrapped `message` tag is the exception |
| Normalize.BareWrapperDropped | frontend/src/core/lib/normalizeUiMsg.ts:5-35 | a wrapper without a truthy inner type is matched as `message` and gives null |
| Normalize.ChatDefaults | frontend/src/core/lib/normalizeUiMsg.ts:9-18 | chat: the sender is the payload's sender verbatim if present, else built from `playerId` ?? "unknown", `playerName` ?? "User" and 0 points; the text defaults to "" only when absent |
| Normalize.CorrectGuessCopies | frontend/src/core/lib/normalizeUiMsg.ts:19-25 | correct guess: id, name and message are copied unchanged, with no defaults |
| Normalize.CloseGuessDefaults | frontend/src/core/lib/normalizeUiMsg.ts:26-33 | close guess: fields are copied and an absent edit distance becomes 0 |
| Normalize.NormalizedConforms | frontend/src/core/lib/normalizeUiMsg.ts:8-33 | a chat result always has the declared shape; a guess result has it exactly when the payload carried the fields the interface requires |
| DrawPoint.PointOps | frontend/src/core/drawPoint.ts:8-14 | start emits BeginPath then MoveTo(x,y) with no stroke; move emits LineTo(x,y) then Stroke; end emits nothing; style is never set and nothing is wiped |
| DrawPoint.PointTrace | frontend/src/core/drawPoint.ts:8-14 | a start or move point is one pen visit at (x,y) in the context's current style, which is left unchanged; an end point visits nothing |
| DrawPoint.PointOpsIgnoreStyle | frontend/src/core/drawPoint.ts:4-15 | the point's colour and size have no effect on the calls made |
| DrawPoint.DrawIncomingPoint | frontend/src/core/drawPoint.ts:4-15 | with no context nothing happens; otherwise exactly the calls of `PointOps` are made |
| SendPoint.PointEnvelopeRoundTrip | frontend/src/core/sendPoint.ts:5-8 | the envelope is tagged `draw_point` and a receiver reads back exactly the point sent |
| SendPoint.SendPoint | frontend/src/core/sendPoint.ts:4-10 | exactly one envelope is sent when there is a socket, none otherwise |
| CanvasUtils.WipeOps | frontend/src/core/canvas-utils/clearAll.ts:4-8 | no call without a canvas, else one ClearRect(0,0,width,height) |
| CanvasUtils.ClearCanvas | frontend/src/core/canvas-utils/clearAll.ts:4-8 | no-op unless both canvas and context exist; then exactly one full-canvas ClearRect, after which nothing drawn is on show |
| CanvasUtils.ClearAll | frontend/src/core/canvas-utils/clearAll.ts:10-17 | the history becomes [] even without a canvas; one `clear` envelope is sent when there is a socket; no caller check |
| Replay.EffectiveStyle | frontend/src/Game.tsx:143-144 | a replayed stroke's colour and width are its own when truthy, else "#000000" and 3; the result is never falsy |
| Replay.PathOps | frontend/src/Game.tsx:145-148 | one call per point, in order: MoveTo for the first point and LineTo for every later one |
| Replay.StrokeOps | frontend/src/Game.tsx:141-150 | a replayed stroke opens a path, sets its stroke's effective style, makes one call per point, strokes the path, and never wipes |
| Replay.ReplayOps | frontend/src/Game.tsx:137-154 | the instant replay's strokes loop never wipes the canvas |
| Replay.StrokeOpsTrace | frontend/src/Game.tsx:141-150 | one replayed stroke visits exactly its points, in order, in its own style, leaves that style active and never wipes |
| Replay.ReplayTrace | frontend/src/Game.tsx:137-154 | the instant replay visits every point of every stroke once, in history order, each in its stroke's style, then leaves the restored pen active |
| Replay.PaintOps | frontend/src/Game.tsx:169-174 | painting point p makes the instant replay's call for that point (moveTo for a stroke's first point, lineTo after), preceded by beginPath only at the first point; it neither sets the style nor wipes |
| Replay.Step | frontend/src/Game.tsx:163-184 | a step that schedules another leaves a valid cursor; a step throws exactly when past the last stroke or on a stroke without points; past the last stroke it makes no call, and on a stroke without points it sets that stroke's style and begins a path before throwing; it never wipes |
| Replay.StepCalls | frontend/src/Game.tsx:164-183 | a step at a real point sets the stroke's style, begins a path only at the stroke's first point, makes that point's moveTo or lineTo, calls stroke(), and restores the viewer's pen only after the last point of the last stroke; the cursor moves to the next point or to the start of the next stroke |
| Replay.StepCallMatchesInstant | frontend/src/Game.tsx:145-148 | the paced step's call for a point is the very call the instant replay makes for it, and stroke() follows it at once |
| Replay.StepMeasure | frontend/src/Game.tsx:177-179 | a step that schedules another leaves one point fewer to paint, so the timer chain ends |
| Replay.StepTrace | frontend/src/Game.tsx:164-183 | a step at a real point visits exactly that point in its stroke's style; after the last point the viewer's pen is active |
| Replay.PacedTraceFrom | frontend/src/Game.tsx:163-185 | from inside a stroke, the chain paints the rest of that stroke and then the following strokes up to the first one without points |
| Replay.PacedTraceAt | frontend/src/Game.tsx:163-185 | from the start of a stroke, the chain paints the strokes up to the first one without points, and leaves the style of the point where it stopped |
| Replay.PacedFrom | frontend/src/Game.tsx:156-185 | the calls of the timer chain from a cursor never wipe the canvas |
| Replay.PacedTrace | frontend/src/Game.tsx:156-186 | the paced replay paints each point of the strokes before the first pointless one once, in order, in its stroke's style; it ends on the viewer's pen when every stroke has points, and otherwise on the style of the first stroke without points (`EndStyle`) |
| Replay.ReplaysAgree | frontend/src/Game.tsx:137-186 | for a non-empty history whose strokes all have points, the paced and instant replays paint the same dots in the same order and both end on the restored pen |
| Replay.PacedStepCount | frontend/src/Game.tsx:177-179 | when every stroke has points, the chain makes exactly as many calls as there are points left |
| GameEngine.Switch | frontend/src/Game.tsx:101-135 | the `switch (raw.type)` picks a case of its own exactly for the seven tags draw_point, stroke, clear, undo, user_joined, user_left and game_state, and that case is the tag spelled |
| GameEngine.BranchesMatchSwitch | frontend/src/Game.tsx:101-135 | each parsed envelope but the default one runs the case the switch picks for its tag; a default envelope carries none of the seven tags, and `message` goes to the default |
| GameEngine.WithoutUser | frontend/src/Game.tsx:124 | the roster after `user_left` is no longer than before |
| GameEngine.WithoutUserMembers | frontend/src/Game.tsx:124 | a player remains exactly when it was in the roster and its id is not the one that left |
| GameEngine.WithoutUserAppend | frontend/src/Game.tsx:124 | filtering distributes over concatenation, so survivors keep their original order |
| GameEngine.WithoutUserAbsent | frontend/src/Game.tsx:124 | an id nobody has leaves the roster unchanged |
| GameEngine.GuessedNames | frontend/src/Game.tsx:30-37 | a name is in the set exactly when some correct-guess message carries it |
| GameEngine.Game.constructor | frontend/src/Game.tsx:17-28 | empty history, roster, chat and stroke; not host, not drawing; pen "#000000" width 6 |
| GameEngine.Game.SelectTool | frontend/src/Game.tsx:66-72 | only the pen changes; the context's style is set to the new pen when it differs from the old one, and no call is made otherwise |
| GameEngine.Game.ClearAll | frontend/src/Game.tsx:81-88 | only the history changes, to []; one wipe and one `clear` envelope |
| GameEngine.Game.ReplayAllStrokes | frontend/src/Game.tsx:137-154 | with a context: a wipe, the instant replay of the strokes, then the restored pen; nothing otherwise |
| GameEngine.Game.DrawStroke | frontend/src/Game.tsx:141-150 | the loop over one stroke's points makes exactly that stroke's replay calls |
| GameEngine.Game.ReplayAllStrokesWithDelay | frontend/src/Game.tsx:156-186 | with a context: a wipe, then exactly the calls of the paced chain from cursor (0,0); nothing otherwise |
| GameEngine.Game.RunTimerChain | frontend/src/Game.tsx:161-185 | running the steps until one does not reschedule makes exactly the calls of the paced chain |
| GameEngine.Game.DrawNextPoint | frontend/src/Game.tsx:163-184 | one `drawNextPoint` call makes the calls of `Step` and reports its outcome, including the style and beginPath made before it throws on a stroke without points |
| GameEngine.Game.ApplyUndo | frontend/src/Game.tsx:112-118 | on an empty history nothing changes and no call is made; otherwise the last stroke is dropped and the rest replayed instantly, ending on the mount-time pen |
| GameEngine.Game.ApplyGameState | frontend/src/Game.tsx:126-130 | the history becomes `strokes` or []; it is paced-replayed ending on the mount-time pen; isHost is set only for a truthy hostId |
| GameEngine.Game.HandleSocketMessage | frontend/src/Game.tsx:97-136 | per tag: draw_point only paints; stroke appends its payload; clear wipes and empties the history; undo on [] does nothing, else drops the last stroke and replays the rest; user_joined replaces the roster; user_left filters it; game_state sets the history to strokes or [], paced-replays it, and sets isHost only for a truthy hostId; any tag without a case of its own (see `Switch`) appends the normaliser's result iff non-null; nothing is ever sent |
| GameEngine.Game.PointerDown | frontend/src/Game.tsx:188-203 | for the host with a context: drawing starts, the stroke is exactly [start point in the pen], a path opens there and that point is sent; otherwise nothing changes |
| GameEngine.Game.PointerMove | frontend/src/Game.tsx:205-216 | while the host draws: one move point is appended, a line drawn to it, and it is sent (every move, no throttle); otherwise nothing changes |
| GameEngine.Game.FinishStroke | frontend/src/Game.tsx:218-238 | when not drawing nothing changes; otherwise drawing stops, the stroke of the points so far is appended, a `stroke` envelope then an `end` point at (0,0) are sent, the points are forgotten, and the appended stroke is a start point followed by moves |
| GameEngine.Game.PointerUp | frontend/src/Game.tsx:240-244 | the host finishes the stroke; anyone else changes nothing |
| GameEngine.Game.PointerLeave | frontend/src/Game.tsx:245-248 | as pointer-up, for the host, when a stroke is under way |
| GameEngine.Game.SubmitChatMsg | frontend/src/Game.tsx:251-259 | with a socket and non-blank text: the trimmed text is sent as a `guess` and the input is emptied; otherwise nothing changes |
| GameEngine.Game.UndoLast | frontend/src/Game.tsx:261-266 | the host sends one `undo` envelope; anyone else sends nothing; no local state changes |
| Menu.Up | frontend/src/App.tsx:68 | ArrowUp keeps the selection among the options |
| Menu.Down | frontend/src/App.tsx:70 | ArrowDown keeps the selection among the options |
| Menu.UpDownAreModular | frontend/src/App.tsx:67-70 | on the options, ArrowUp is x-1 mod n and ArrowDown is x+1 mod n |
| Menu.UpDownInverse | frontend/src/App.tsx:67-70 | ArrowDown then ArrowUp, or the reverse, returns to the same option |
| Menu.Dispatch | frontend/src/App.tsx:48-51 | Enter joins exactly on option 0 and creates exactly on option 1 |
| Menu.SelectionInRange | frontend/src/App.tsx:65-78 | every key sequence from an option, such as the initial 0, keeps the selection among the options |
| Menu.JoinedRoom | frontend/src/App.tsx:37-46 | an empty or cancelled answer leaves the room id; any other answer becomes it |
| Menu.StartMenu.constructor | frontend/src/App.tsx:7-8 | the selection starts at 0 and the room id at "" |
| Menu.StartMenu.Hover | frontend/src/App.tsx:99 | hovering an option selects it |
| Menu.StartMenu.KeyDown | frontend/src/App.tsx:65-78 | arrows move the selection; Enter dispatches the selected option and joining applies the prompt's guard; other keys change nothing |
| WordBank.Kept | backend/pkg/utils/getRandomWord.go:27-30 | one line gives at most one word, which is non-empty and already trimmed |
| WordBank.ParseWords | backend/pkg/utils/getRandomWord.go:24-31 | every word parsed from a file is non-empty and already trimmed |
| WordBank.KeepWords | backend/pkg/utils/getRandomWord.go:25-31 | there are never more words than lines |
| WordBank.KeepWordsAreWords | backend/pkg/utils/getRandomWord.go:27-30 | every kept word is non-empty and is its own trimmed form |
| WordBank.KeepWordsSnoc | backend/pkg/utils/getRandomWord.go:26-31 | one more line adds its trimmed text at the end, unless that text is empty |
| WordBank.KeepWordsAppend | backend/pkg/utils/getRandomWord.go:24-31 | lines are kept or dropped independently, in file order |
| WordBank.KeepWordsEmptyIff | backend/pkg/utils/getRandomWord.go:26-34 | no word is kept exactly when every line is blank |
| WordBank.CollectWords | backend/pkg/utils/getRandomWord.go:25-31 | the loop builds exactly the kept words |
| WordBank.Bank.constructor | backend/pkg/utils/getRandomWord.go:13-17 | not loaded, no error, no words |
| WordBank.Bank.LoadWords | backend/pkg/utils/getRandomWord.go:19-38 | a read error is returned as is; no words gives "word bank empty after parsing" and leaves the list unassigned; otherwise the list becomes the parsed words |
| WordBank.Bank.GetRandomWord | backend/pkg/utils/getRandomWord.go:40-53 | loads on the first call only; returns the stored load error, or the word at pick mod the list's length, which is a non-empty trimmed word; difficulty plays no part |
| RoomLink.FromFragment | backend/test/test.go:84-101 | a fragment holding `roomId=` gives an id without `&` |
| RoomLink.KeyHasEquals | backend/test/test.go:86-94 | text holding `roomId=` holds `=`, so the path rule cannot apply to it |
| RoomLink.ExtractRoomId | backend/test/test.go:63-70 | a URL parse error gives "" |
| RoomLink.QueryFirst | backend/test/test.go:71-75 | a non-empty `roomId` query value is returned first |
| RoomLink.BareQuery | backend/test/test.go:77-81 | next, a non-empty query without `=` is returned as is |
| RoomLink.FragmentKey | backend/test/test.go:84-92 | next, a fragment with `roomId=` gives the text after the first `roomId=`, cut at the next `roomId=` and at the first `&`; it may be empty |
| RoomLink.FragmentPath | backend/test/test.go:93-100 | next, a fragment without `=` gives itself minus one leading `/` when that is non-empty, else "" |
| RoomLink.NothingFound | backend/test/test.go:103 | every other link gives "" |
| Text.JsTrim | frontend/src/Game.tsx:252 | `trim` gives "" exactly when every character is white space; otherwise the result starts and ends with a non-space |
| Text.GoTrimSpace | backend/pkg/utils/getRandomWord.go:27 | `strings.TrimSpace` is no longer than its input, and a non-empty result starts and ends with a non-space |
| Text.Split | backend/pkg/utils/getRandomWord.go:24 | `strings.Split` with a non-empty separator gives at least one piece, even for "" |
| Text.TrimWith | frontend/src/Game.tsx:252 | the result is the input minus its leading and trailing white-space runs, and begins and ends with a non-space |
| Text.TrimIdempotent | backend/pkg/utils/getRandomWord.go:27 | trimming twice is trimming once |
| Text.TrimEmptyIff | frontend/src/Game.tsx:252-253 | trimming leaves nothing exactly when every character is white space |
| Text.IndexFrom | backend/test/test.go:78 | the first occurrence at or after an index, or a proof that there is none |
| Text.TrimPrefix | backend/test/test.go:96 | the prefix is removed exactly when present |
| Text.SplitPiecesClean | backend/pkg/utils/getRandomWord.go:24 | no piece holds the separator, and there is more than one piece exactly when the text holds it |
| Text.JoinSplit | backend/pkg/utils/getRandomWord.go:24 | joining the pieces with the separator gives back the text |
| Text.SplitPieces | backend/test/test.go:87-89 | the first piece is the text before the first separator and the second is the text between the first and the next |

## Left out

- Timers: `setTimeout` and its 8 ms spacing are not modelled. The paced replay's steps run back to back, so a second replay or another event interleaving with a running chain is not covered.
- JSON encoding and decoding and the WebSocket connection are not modelled. Outbound envelopes are appended to an outbox; inbound ones arrive already parsed, with optional fields as `Option`.
- A `null` or non-object `data` is not modelled. The payload is always an object; JavaScript would throw reading its fields.
- `Object.values(raw.data)` for `user_joined` is not modelled: the model takes the resulting player list, in enumeration order, as the payload.
- The mount effect is not modelled: canvas sizing, `lineCap`/`lineJoin`, the white `fillRect` background, and socket opening and closing (frontend/src/Game.tsx:42-64). Their only trace in the model is `MountPen`. A change of `roomId`, which re-runs the effect, opens a new socket and captures the pen of that render, is not modelled.
- Pointer geometry (`pointerPos`, pointer capture, `preventDefault`) is not modelled. Handlers take the canvas position as input.
- React is not modelled: render batching, effect scheduling, and the replay run inside the `undo` state updater (frontend/src/Game.tsx:116). Each handler runs to completion in order.
- Typing in the chat box (`setInput`) and the scroll-to-bottom effect are not modelled.
- Layout and presentation components are not modelled: ToolBar, Chat, PlayerTab, NormalLayout, MobileLayout and Pallete.
- The Go server is not modelled: rooms, players, pumps and HTTP handlers. ID generation (id.go, shortId.go, guesId.ts) is not modelled either.
- The rest of App.tsx is not modelled: room creation over HTTP (only reported as the `CreateRoom` action), the URL query read on mount, `history.pushState` and the popstate handler.
- `url.Parse` is not modelled. `RoomLink.ExtractRoomId` takes the three URL parts it reads, or the parse error. The load-generator code in test.go is not modelled.
- `os.ReadFile` is an input: the file's contents or its error. `rand.Intn(n)` is an input `pick`, used as `pick % n`. `sync.Once` is modelled by the `loaded` flag, without concurrency.
- Canvas.After: the canvas model applies every style it is given. A real 2D context ignores a `lineWidth` that is zero, negative, NaN or infinite, and a `strokeStyle` it cannot parse as a colour, and keeps the previous value. So for a stroke whose own width is negative or whose colour is not a colour, "in its stroke's style" in the rows above means the requested style, not the one a browser would use.
- Coordinates and widths are `real`. Floating-point rounding and NaN are not modelled.
- Text.TrimWith: characters are Unicode code points as Dafny's `char`. Go's handling of invalid UTF-8 bytes is not modelled.

=== FILE: canvas.dfy ===
/** The HTML canvas as the core uses it: a 2D context is a log of the drawing calls made on
    it, and the canvas element contributes its size. Two interpretations of a log give the
    properties below their meaning: `Trace` lists the points the pen visits with the style
    in force at each, and `SinceClear` is the part of the log drawn since the last wipe. */
module Canvas {

  /** One call on a CanvasRenderingContext2D. `SetStyle(c, w)` stands for the pair of
      assignments `strokeStyle = c; lineWidth = w`, which the source always makes together. */
  datatype CanvasOp =
    | BeginPath
    | MoveTo(x: real, y: real)
    | LineTo(x: real, y: real)
    | StrokePath
    | ClearRect(x: real, y: real, w: real, h: real)
    | SetStyle(color: string, width: real)

  /** The context's active stroke style. */
  datatype Style = Style(color: string, width: real)

  /** A point the pen visits, with the style in force when it does. */
  datatype Dot = Dot(x: real, y: real, style: Style)

  /** The active style after the call `op`. */
  function After(op: CanvasOp, st: Style): Style {
    if op.SetStyle? then Style(op.color, op.width) else st
  }

  /** The point the call `op` visits, if any: `moveTo` and `lineTo` visit theirs. */
  function Visit(op: CanvasOp, st: Style): seq<Dot> {
    match op
    case MoveTo(x, y) => [Dot(x, y, st)]
    case LineTo(x, y) => [Dot(x, y, st)]
    case _ => []
  }

  /** The active style after running `ops` from style `st`. */
  function FinalStyle(ops: seq<CanvasOp>, st: Style): Style {
    if ops == [] then st else FinalStyle(ops[1..], After(ops[0], st))
  }

  /** The points visited by `ops`, in order, each with the style active at the visit. */
  function Trace(ops: seq<CanvasOp>, st: Style): seq<Dot> {
    if ops == [] then [] else Visit(ops[0], st) + Trace(ops[1..], After(ops[0], st))
  }

  lemma TraceOne(op: CanvasOp, st: Style)
    ensures Trace([op], st) == Visit(op, st)
    ensures FinalStyle([op], st) == After(op, st)
  {
    assert [op][1..] == [];
  }

  /** Running two logs one after the other: the trace of the second starts from the style
      the first leaves behind. */
  lemma {:induction false} TraceAppend(a: seq<CanvasOp>, b: seq<CanvasOp>, st: Style)
    ensures Trace(a + b, st) == Trace(a, st) + Trace(b, FinalStyle(a, st))
    ensures FinalStyle(a + b, st) == FinalStyle(b, FinalStyle(a, st))
  {
    if a == [] {
      assert a + b == b;
    } else {
      assert (a + b)[0] == a[0];
      assert (a + b)[1..] == a[1..] + b;
      TraceAppend(a[1..], b, After(a[0], st));
    }
  }

  /** A log that never sets the style. */
  predicate KeepsStyle(ops: seq<CanvasOp>) {
    forall i :: 0 <= i < |ops| ==> !ops[i].SetStyle?
  }

  /** A log that sets no style leaves the style alone. */
  lemma {:induction false} KeepsStyleFinal(ops: seq<CanvasOp>, st: Style)
    requires KeepsStyle(ops)
    ensures FinalStyle(ops, st) == st
  {
    if ops != [] {
      assert !ops[0].SetStyle?;
      KeepsStyleFinal(ops[1..], st);
    }
  }

  /** A log with no wipe in it. */
  predicate NoClear(ops: seq<CanvasOp>) {
    forall i :: 0 <= i < |ops| ==> !ops[i].ClearRect?
  }

  lemma NoClearAppend(a: seq<CanvasOp>, b: seq<CanvasOp>)
    requires NoClear(a) && NoClear(b)
    ensures NoClear(a + b)
  {
    forall i | 0 <= i < |a + b| ensures !(a + b)[i].ClearRect? {
      if i >= |a| {
        assert (a + b)[i] == b[i - |a|];
      }
    }
  }

  /** The part of the log after its last `ClearRect`: what the canvas shows on top of blank. */
  function SinceClear(ops: seq<CanvasOp>): (r: seq<CanvasOp>)
    ensures NoClear(r)
    ensures |r| <= |ops| && r == ops[|ops| - |r|..]
  {
    if ops == [] then []
    else if ops[|ops| - 1].ClearRect? then []
    else SinceClear(ops[..|ops| - 1]) + [ops[|ops| - 1]]
  }

  /** After a wipe followed by wipe-free drawing, the canvas shows exactly that drawing,
      whatever was on it before. */
  lemma {:induction false} SinceClearAfterWipe(before: seq<CanvasOp>, wipe: CanvasOp, after: seq<CanvasOp>)
    requires wipe.ClearRect? && NoClear(after)
    ensures SinceClear(before + [wipe] + after) == after
    decreases |after|
  {
    if after == [] {
      assert before + [wipe] + after == before + [wipe];
      SinceClearSnoc(before, wipe);
    } else {
      var init := after[..|after| - 1];
      var last := after[|after| - 1];
      assert !last.ClearRect?;
      assert NoClear(init) by {
        forall i | 0 <= i < |init| ensures !init[i].ClearRect? {
          assert init[i] == after[i];
        }
      }
      SinceClearAfterWipe(before, wipe, init);
      assert before + [wipe] + after == (before + [wipe] + init) + [last];
      SinceClearSnoc(before + [wipe] + init, last);
      assert after == init + [last];
    }
  }

  /** One more op: a wipe leaves nothing on show, anything else is added to what was. */
  lemma SinceClearSnoc(ops: seq<CanvasOp>, op: CanvasOp)
    ensures SinceClear(ops + [op]) == if op.ClearRect? then [] else SinceClear(ops) + [op]
  {
    assert (ops + [op])[..|ops|] == ops;
  }

  /** `HTMLCanvasElement`, as far as the core reads it. */
  class CanvasElement {
    const width: real
    const height: real

    constructor (width: real, height: real)
      ensures this.width == width && this.height == height
    {
      this.width := width;
      this.height := height;
    }
  }

  /** `CanvasRenderingContext2D`: the calls made on it so far. */
  class Context {
    var ops: seq<CanvasOp>

    constructor ()
      ensures ops == []
    {
      ops := [];
    }

    /** Make the calls `more`, in order. */
    method Emit(more: seq<CanvasOp>)
      modifies this
      ensures ops == old(ops) + more
    {
      ops := ops + more;
    }
  }
}

=== FILE: canvasutils.dfy ===
/** frontend/src/core/canvas-utils/clearAll.ts: wipe the canvas, and wipe the whole drawing
    (canvas, stroke history and every peer's copy). Game.tsx carries identical private copies
    of both, which the game model calls. */
module CanvasUtils {
  import opened Types
  import opened Canvas
  import opened Transport

  /** The wipe `clearCanvas` issues when both canvas and context are present. */
  function WipeOps(canvas: CanvasElement?): (ops: seq<CanvasOp>)
    ensures canvas == null ==> ops == []
    ensures canvas != null ==> ops == [ClearRect(0.0, 0.0, canvas.width, canvas.height)]
  {
    if canvas == null then [] else [ClearRect(0.0, 0.0, canvas.width, canvas.height)]
  }

  /** `clearCanvas(canvasRef, ctxRef)`: a no-op unless both are present, and then exactly one
      `clearRect` over the whole canvas, after which the canvas is blank. */
  method ClearCanvas(canvas: CanvasElement?, ctx: Context?)
    modifies ctx
    ensures ctx != null ==> ctx.ops == old(ctx.ops) + WipeOps(canvas)
    ensures ctx != null && canvas != null ==> SinceClear(ctx.ops) == []
  {
    if canvas == null || ctx == null {
      return;
    }
    ctx.Emit(WipeOps(canvas));
    SinceClearAfterWipe(old(ctx.ops), ClearRect(0.0, 0.0, canvas.width, canvas.height), []);
    assert ctx.ops == old(ctx.ops) + [ClearRect(0.0, 0.0, canvas.width, canvas.height)] + [];
  }

  /** The `clear` envelope, `{type: "clear", data: {}}`. */
  function ClearEnvelope(): Outgoing {
    Outgoing(Clear, EmptyBody)
  }

  /** `clearAll(...)`: wipe the canvas, set the stroke history to empty (returned here as the
      value handed to `setAllStrokes`) whether or not a canvas exists, and send one `clear`
      envelope when there is a socket. Nothing checks who is asking. */
  method ClearAll(canvas: CanvasElement?, ctx: Context?, socket: Socket?) returns (history: seq<Stroke>)
    modifies ctx, socket
    ensures history == []
    ensures ctx != null ==> ctx.ops == old(ctx.ops) + WipeOps(canvas)
    ensures socket != null ==> socket.outbox == old(socket.outbox) + [ClearEnvelope()]
  {
    ClearCanvas(canvas, ctx);
    history := [];
    if socket != null {
      socket.Send(ClearEnvelope());
    }
  }
}

=== FILE: drawpoint.dfy ===
/** frontend/src/core/drawPoint.ts: paint a point received from the host onto the local canvas. */
module DrawPoint {
  import opened Types
  import opened Canvas

  /** The calls `drawIncomingPoint` makes on a present context. A start point opens a new
      path at (x, y) without stroking it; a move point extends the path and strokes it; an
      end point makes no call. The point's own colour and size are never consulted. */
  function PointOps(p: Point): (ops: seq<CanvasOp>)
    ensures KeepsStyle(ops) && NoClear(ops)
    ensures p.kind.Start? ==> ops == [BeginPath, MoveTo(p.x, p.y)]
    ensures p.kind.Move? ==> ops == [LineTo(p.x, p.y), StrokePath]
    ensures p.kind.End? <==> ops == []
  {
    match p.kind
    case Start => [BeginPath, MoveTo(p.x, p.y)]
    case Move => [LineTo(p.x, p.y), StrokePath]
    case End => []
  }

  /** What the pen does: a start or move point is one visit of (x, y) in whatever style the
      context already has, and the style is left as it was. */
  lemma PointTrace(p: Point, st: Style)
    ensures Trace(PointOps(p), st) == if p.kind.End? then [] else [Dot(p.x, p.y, st)]
    ensures FinalStyle(PointOps(p), st) == st
  {
    var ops := PointOps(p);
    KeepsStyleFinal(ops, st);
    if !p.kind.End? {
      var tail := ops[1..];
      assert tail[1..] == [];
      assert Trace(tail[1..], st) == [];
      if p.kind.Start? {
        assert Trace(tail, st) == [Dot(p.x, p.y, st)];
      } else {
        assert Trace(tail, st) == [];
      }
    }
  }

  /** Per-point colour and size have no effect on what is drawn. */
  lemma PointOpsIgnoreStyle(p: Point, color: string, size: real)
    ensures PointOps(p.(pointColor := color, pointSize := size)) == PointOps(p)
  {
  }

  /** `drawIncomingPoint(ctxRef, point)`: nothing without a context. */
  method DrawIncomingPoint(ctx: Context?, p: Point)
    modifies ctx
    ensures ctx != null ==> ctx.ops == old(ctx.ops) + PointOps(p)
  {
    if ctx == null {
      return;
    }
    match p.kind
    case Start =>
      ctx.Emit([BeginPath, MoveTo(p.x, p.y)]);
    case Move =>
      ctx.Emit([LineTo(p.x, p.y), StrokePath]);
    case End =>
  }
}

=== FILE: game.dfy ===
/** frontend/src/Game.tsx: the client's drawing-sync engine. One object holds the local
    state (stroke history, roster, chat messages, the stroke being drawn, the host flag and
    the viewer's pen) and references to the canvas, its 2D context and the room socket,
    any of which may be missing. It reacts to three kinds of events: envelopes from the
    server, pointer input on the canvas, and the toolbar/chat controls. */
module GameEngine {
  import opened Wrappers
  import opened Types
  import opened Canvas
  import opened Transport
  import opened DrawPoint
  import opened SendPoint
  import opened CanvasUtils
  import opened Replay
  import opened Normalize
  import opened Text
  import opened Seqs

  /** A parsed inbound envelope, by tag; the fields of each payload the handler reads, with
      the optional ones optional. `OtherIn` is every tag without a case of its own (see
      `Switch`), handed to the normaliser. */
  datatype Inbound =
    | DrawPointIn(point: Point)
    | StrokeIn(stroke: Stroke)
    | ClearIn
    | UndoIn
    | UserJoinedIn(players: seq<Player>)      // `Object.values(data)`, in enumeration order
    | UserLeftIn(userId: Option<string>)
    | GameStateIn(strokes: Option<seq<Stroke>>, hostId: Option<string>)
    | OtherIn(raw: WSMessage)

  /** The case of `switch (raw.type)` that a tag selects, or `None` for the default branch:
      the seven drawing and roster tags have cases of their own. */
  function Switch(tag: string): (r: Option<Tag>)
    ensures r.Some? ==> TagName(r.value) == tag
    ensures r.Some? <==> tag in {"draw_point", "stroke", "clear", "undo", "user_joined", "user_left", "game_state"}
  {
    match ParseTag(tag)
    case Some(t) =>
      if t in {DrawPoint, StrokeTag, Clear, Undo, UserJoined, UserLeft, GameState} then Some(t) else None
    case None => None
  }

  /** The case an inbound event was parsed for: `OtherIn` is the default branch. */
  function Branch(msg: Inbound): Option<Tag> {
    match msg
    case DrawPointIn(_) => Some(DrawPoint)
    case StrokeIn(_) => Some(StrokeTag)
    case ClearIn => Some(Clear)
    case UndoIn => Some(Undo)
    case UserJoinedIn(_) => Some(UserJoined)
    case UserLeftIn(_) => Some(UserLeft)
    case GameStateIn(_, _) => Some(GameState)
    case OtherIn(_) => None
  }

  /** Each parsed event sits in the branch its tag's spelling selects; the default branch
      receives exactly the tags without a case, the legacy `message` wrapper among them. */
  lemma BranchesMatchSwitch(msg: Inbound)
    requires msg.OtherIn? ==> Switch(msg.raw.tag).None?
    ensures !msg.OtherIn? ==> Switch(TagName(Branch(msg).value)) == Branch(msg)
    ensures msg.OtherIn? ==> msg.raw.tag !in {"draw_point", "stroke", "clear", "undo", "user_joined", "user_left", "game_state"}
    ensures Switch("message").None?
  {
  }

  /** A string field that JavaScript reads as true: present and non-empty. */
  predicate Truthy(s: Option<string>) {
    s.Some? && s.value != ""
  }

  /** The roster after `user_left`: `prev.filter(u => u.ID !== userId)`. A missing `userId`
      matches nobody. */
  function WithoutUser(roster: seq<Player>, userId: Option<string>): (r: seq<Player>)
    ensures |r| <= |roster|
  {
    if roster == [] then []
    else (if Some(roster[0].id) != userId then [roster[0]] else []) + WithoutUser(roster[1..], userId)
  }

  /** Exactly the players whose id is not the one that left remain. */
  lemma {:induction false} WithoutUserMembers(roster: seq<Player>, userId: Option<string>)
    ensures forall u :: u in WithoutUser(roster, userId) <==> u in roster && Some(u.id) != userId
  {
    if roster != [] {
      WithoutUserMembers(roster[1..], userId);
      assert forall u :: u in roster <==> u == roster[0] || u in roster[1..];
    }
  }

  /** One player in front: it is kept unless its id is the one that left. */
  lemma WithoutUserCons(p: Player, rest: seq<Player>, userId: Option<string>)
    ensures WithoutUser([p] + rest, userId) == (if Some(p.id) != userId then [p] else []) + WithoutUser(rest, userId)
  {
    assert ([p] + rest)[0] == p && ([p] + rest)[1..] == rest;
  }

  /** Filtering keeps the survivors in their original order. */
  lemma {:induction false} WithoutUserAppend(a: seq<Player>, b: seq<Player>, userId: Option<string>)
    ensures WithoutUser(a + b, userId) == WithoutUser(a, userId) + WithoutUser(b, userId)
  {
    if a == [] {
      assert a + b == b;
    } else {
      var p, t := a[0], a[1..];
      var head := if Some(p.id) != userId then [p] else [];
      assert a == [p] + t && a + b == [p] + (t + b);
      WithoutUserCons(p, t + b, userId);
      WithoutUserCons(p, t, userId);
      WithoutUserAppend(t, b, userId);
      Regroup(head, WithoutUser(t, userId), WithoutUser(b, userId), WithoutUser(a + b, userId));
    }
  }

  /** An id nobody in the roster has leaves the roster as it was (the id is not validated). */
  lemma {:induction false} WithoutUserAbsent(roster: seq<Player>, userId: Option<string>)
    requires forall u :: u in roster ==> Some(u.id) != userId
    ensures WithoutUser(roster, userId) == roster
  {
    if roster != [] {
      assert roster[0] in roster;
      WithoutUserAbsent(roster[1..], userId);
      assert roster == [roster[0]] + roster[1..];
    }
  }

  /** `guessedNames`: the names of the players with a correct guess among the messages. */
  function GuessedNames(messages: seq<UiMessage>): (names: set<Option<string>>)
    ensures forall n :: n in names <==>
      exists m :: m in messages && m.CorrectGuessMessage? && m.playerName == n
  {
    if messages == [] then {}
    else
      assert forall m :: m in messages <==> m == messages[0] || m in messages[1..];
      (if messages[0].CorrectGuessMessage? then {messages[0].playerName} else {}) + GuessedNames(messages[1..])
  }

  /** A stroke being drawn: one start point followed by move points only. */
  predicate InProgress(pts: seq<Point>) {
    |pts| >= 1 && pts[0].kind.Start? && forall i :: 1 <= i < |pts| ==> pts[i].kind.Move?
  }

  /** The component's state, as one value. */
  datatype GameView = GameView(
    allStrokes: seq<Stroke>,
    connectedUsers: seq<Player>,
    currentStroke: seq<Point>,
    messages: seq<UiMessage>,
    input: string,
    isHost: bool,
    drawing: bool,
    strokeColor: string,
    strokeWidth: real)

  const InitialColor: string := "#000000"
  const InitialWidth: real := 6.0
  /** The pen of the render in which the socket was opened (on mount, for the one room
      modelled), which the socket handler's closure holds on to. */
  const MountPen: Style := Style(InitialColor, InitialWidth)

  class Game {
    const localId: string
    const canvas: CanvasElement?
    const ctx: Context?
    const socket: Socket?

    var allStrokes: seq<Stroke>
    var connectedUsers: seq<Player>
    var currentStroke: seq<Point>
    var messages: seq<UiMessage>
    var input: string
    var isHost: bool
    var drawing: bool          // `drawingRef.current`
    var strokeColor: string
    var strokeWidth: real

    function View(): GameView
      reads this
    {
      GameView(allStrokes, connectedUsers, currentStroke, messages, input, isHost, drawing, strokeColor, strokeWidth)
    }

    /** While drawing, the stroke so far is a start point and moves; otherwise there is none. */
    ghost predicate Valid()
      reads this
    {
      (drawing ==> InProgress(currentStroke)) && (!drawing ==> currentStroke == [])
    }

    /** Exactly the calls `ops` were made on the context (when there is one). */
    twostate predicate Drew(ops: seq<CanvasOp>)
      reads this, ctx
    {
      ctx != null ==> ctx.ops == old(ctx.ops) + ops
    }

    /** Exactly the envelopes `es` were sent (when there is a socket). */
    twostate predicate Sent(es: seq<Outgoing>)
      reads this, socket
    {
      socket != null ==> socket.outbox == old(socket.outbox) + es
    }

    /** Nothing observable happened. */
    twostate predicate Untouched()
      reads this, ctx, socket
    {
      View() == old(View()) && Drew([]) && Sent([])
    }

    constructor (localId: string, canvas: CanvasElement?, ctx: Context?, socket: Socket?)
      ensures Valid()
      ensures this.localId == localId && this.canvas == canvas && this.ctx == ctx && this.socket == socket
      ensures View() == GameView([], [], [], [], "", false, false, InitialColor, InitialWidth)
    {
      this.localId := localId;
      this.canvas := canvas;
      this.ctx := ctx;
      this.socket := socket;
      allStrokes := [];
      connectedUsers := [];
      currentStroke := [];
      messages := [];
      input := "";
      isHost := false;
      drawing := false;
      strokeColor := InitialColor;
      strokeWidth := InitialWidth;
    }

    /** Picking a colour and width in the toolbar. The context's style is set by an effect
        keyed on the pen, so it runs only when the pen actually changes: re-picking the
        current pen leaves the context's style as it is (say, the one a replay left). */
    method SelectTool(color: string, width: real)
      requires Valid()
      modifies this, ctx
      ensures Valid()
      ensures View() == old(View()).(strokeColor := color, strokeWidth := width)
      ensures color != old(strokeColor) || width != old(strokeWidth) ==> Drew([SetStyle(color, width)])
      ensures color == old(strokeColor) && width == old(strokeWidth) ==> Drew([])
    {
      var changed := color != strokeColor || width != strokeWidth;
      strokeColor, strokeWidth := color, width;
      if changed && ctx != null {
        ctx.Emit([SetStyle(color, width)]);
      }
    }

    /** `clearAll`: wipe canvas and history and tell the peers. Not restricted to the host. */
    method ClearAll()
      requires Valid()
      modifies this, ctx, socket
      ensures Valid()
      ensures View() == old(View()).(allStrokes := [])
      ensures Drew(WipeOps(canvas)) && Sent([ClearEnvelope()])
    {
      allStrokes := CanvasUtils.ClearAll(canvas, ctx, socket);
    }

    /** `replayAllStrokes`: wipe, draw each stroke as one path in its own style, then put
        back the pen `restore` of the render the caller belongs to. Nothing without a context. */
    method ReplayAllStrokes(strokes: seq<Stroke>, restore: Style)
      modifies ctx
      ensures Drew(WipeOps(canvas) + ReplayOps(strokes) + [SetStyle(restore.color, restore.width)])
    {
      if ctx == null {
        return;
      }
      ghost var start := ctx.ops;
      ClearCanvas(canvas, ctx);
      ghost var base := ctx.ops;
      var k := 0;
      while k < |strokes|
        invariant 0 <= k <= |strokes|
        invariant ctx.ops == base + ReplayOps(strokes[..k])
      {
        DrawStroke(strokes[k]);
        ReplayOpsSnoc(strokes, k);
        Regroup(base, ReplayOps(strokes[..k]), StrokeOps(strokes[k]), base + ReplayOps(strokes[..k + 1]));
        k := k + 1;
      }
      assert strokes[..k] == strokes;
      ctx.Emit([SetStyle(restore.color, restore.width)]);
      assert ctx.ops == start + (WipeOps(canvas) + ReplayOps(strokes) + [SetStyle(restore.color, restore.width)]);
    }

    /** One stroke of `replayAllStrokes`: a path through all its points in its own style. */
    method DrawStroke(stroke: Stroke)
      requires ctx != null
      modifies ctx
      ensures Drew(StrokeOps(stroke))
    {
      var e := EffectiveStyle(stroke);
      ctx.Emit([BeginPath, SetStyle(e.color, e.width)]);
      ghost var base := ctx.ops;
      var i := 0;
      while i < |stroke.paths|
        invariant 0 <= i <= |stroke.paths|
        invariant ctx.ops == base + PathOps(stroke.paths, i)
      {
        var pt := stroke.paths[i];
        if i == 0 {
          ctx.Emit([MoveTo(pt.x, pt.y)]);
        } else {
          ctx.Emit([LineTo(pt.x, pt.y)]);
        }
        i := i + 1;
      }
      ctx.Emit([StrokePath]);
    }

    /** `replayAllStrokesWithDelay`: wipe, then run `drawNextPoint` from cursor (0, 0) until it
        has drawn the last point (and put back the pen `restore`) or thrown. The 8 ms pauses
        between steps are not modelled: the steps run back to back. */
    method ReplayAllStrokesWithDelay(strokes: seq<Stroke>, restore: Style)
      modifies ctx
      ensures Drew(WipeOps(canvas) + PacedFrom(strokes, 0, 0, restore))
    {
      if ctx == null {
        return;
      }
      ghost var paced := PacedFrom(strokes, 0, 0, restore);
      ghost var start := ctx.ops;
      ClearCanvas(canvas, ctx);
      ghost var mid := ctx.ops;
      RunTimerChain(strokes, restore);
      assert ctx.ops == mid + paced;
      assert ctx.ops == start + (WipeOps(canvas) + paced);
    }

    /** The chain of `drawNextPoint` timers from cursor (0, 0): each call schedules the next
        until the strokes are exhausted or a call throws. */
    method RunTimerChain(strokes: seq<Stroke>, restore: Style)
      requires ctx != null
      modifies ctx
      ensures Drew(PacedFrom(strokes, 0, 0, restore))
    {
      ghost var base := ctx.ops;
      ghost var total := PacedFrom(strokes, 0, 0, restore);
      ghost var rest := total;               // the calls still to come
      var s, p := 0, 0;
      var running := true;
      while running
        invariant ValidCursor(strokes, s, p)
        invariant ctx.ops + rest == base + total
        invariant running ==> rest == PacedFrom(strokes, s, p, restore)
        invariant !running ==> rest == []
        decreases running, Remaining(strokes, s, p)
      {
        ghost var step := Step(strokes, s, p, restore);
        StepMeasure(strokes, s, p, restore);
        PacedUnfold(strokes, s, p, restore);
        ghost var before := ctx.ops;
        var next := DrawNextPoint(strokes, s, p, restore);
        match next
        case Next(s', p') =>
          ghost var later := PacedFrom(strokes, s', p', restore);
          Regroup(before, step.ops, later, base + total);
          rest := later;
          s, p := s', p';
        case _ =>
          Regroup(before, step.ops, [], base + total);
          rest := [];
          running := false;
      }
      assert ctx.ops + [] == ctx.ops;
    }

    /** `drawNextPoint` at cursor (s, p): put on the stroke's pen, paint the point there as a
        path of its own, advance the cursor, and after the last point put the viewer's pen
        back. Past the last stroke, or on a stroke without points, the call throws and ends
        the chain. */
    method DrawNextPoint(strokes: seq<Stroke>, s: nat, p: nat, viewer: Style) returns (next: Outcome)
      requires ctx != null && ValidCursor(strokes, s, p)
      modifies ctx
      ensures next == Step(strokes, s, p, viewer).outcome
      ensures Drew(Step(strokes, s, p, viewer).ops)
    {
      if s >= |strokes| {
        return Crash;                            // strokes[s].strokeColor throws
      }
      var stroke := strokes[s];
      var e := EffectiveStyle(stroke);
      ghost var start := ctx.ops;
      var style := [SetStyle(e.color, e.width)];
      ctx.Emit(style);
      if p >= |stroke.paths| {
        ctx.Emit([BeginPath]);                   // p is 0 here: beginPath, then pt.x throws
        Assoc(start, style, [BeginPath]);
        return Crash;
      }
      var draw := PaintOps(stroke.paths, p);
      ctx.Emit(draw);
      Assoc(start, style, draw);
      ctx.Emit([StrokePath]);
      Assoc(start, style + draw, [StrokePath]);
      var s', p' := s, p + 1;
      if p' >= |stroke.paths| {
        s', p' := s + 1, 0;
      }
      if s' >= |strokes| {
        ctx.Emit([SetStyle(viewer.color, viewer.width)]);
        Assoc(start, style + draw + [StrokePath], [SetStyle(viewer.color, viewer.width)]);
        return Done;
      }
      return Next(s', p');
    }

    /** `handleSocketMessage`: apply one server envelope. Never sends anything. The handler
        is the one attached when the socket was opened, so the replays it starts put back the
        pen of the render that opened it, `MountPen`, not the viewer's current one. */
    method HandleSocketMessage(msg: Inbound)
      requires Valid()
      requires msg.OtherIn? ==> Switch(msg.raw.tag).None?
      modifies this, ctx
      ensures Valid()
      ensures match msg
        case DrawPointIn(pt) =>
          View() == old(View()) && Drew(PointOps(pt))
        case StrokeIn(st) =>
          View() == old(View()).(allStrokes := old(allStrokes) + [st]) && Drew([])
        case ClearIn =>
          View() == old(View()).(allStrokes := []) && Drew(WipeOps(canvas))
        case UndoIn =>
          if old(allStrokes) == [] then View() == old(View()) && Drew([])
          else
            && View() == old(View()).(allStrokes := old(allStrokes)[..|old(allStrokes)| - 1])
            && Drew(WipeOps(canvas) + ReplayOps(allStrokes) + [SetStyle(MountPen.color, MountPen.width)])
        case UserJoinedIn(players) =>
          View() == old(View()).(connectedUsers := players) && Drew([])
        case UserLeftIn(userId) =>
          View() == old(View()).(connectedUsers := WithoutUser(old(connectedUsers), userId)) && Drew([])
        case GameStateIn(strokes, hostId) =>
          && View() == old(View()).(allStrokes := strokes.GetOr([]),
                                    isHost := if Truthy(hostId) then hostId.value == localId else old(isHost))
          && Drew(WipeOps(canvas) + PacedFrom(strokes.GetOr([]), 0, 0, MountPen))
        case OtherIn(raw) =>
          && View() == old(View()).(messages := old(messages) +
                                      match NormalizeInbound(raw) case Some(u) => [u] case None => [])
          && Drew([])
    {
      match msg
      case DrawPointIn(pt) =>
        DrawIncomingPoint(ctx, pt);
      case StrokeIn(st) =>
        allStrokes := allStrokes + [st];
      case ClearIn =>
        ClearCanvas(canvas, ctx);
        allStrokes := [];
      case UndoIn =>
        ApplyUndo();
      case UserJoinedIn(players) =>
        connectedUsers := players;
      case UserLeftIn(userId) =>
        connectedUsers := WithoutUser(connectedUsers, userId);
      case GameStateIn(strokes, hostId) =>
        ApplyGameState(strokes, hostId);
      case OtherIn(raw) =>
        var ui := NormalizeInbound(raw);
        if ui.Some? {
          messages := messages + [ui.value];
        }
    }

    /** The `undo` case: nothing on an empty history; otherwise drop the last stroke and
        replay the rest instantly, restoring the mount-time pen. */
    method ApplyUndo()
      requires Valid()
      modifies this, ctx
      ensures Valid()
      ensures old(allStrokes) == [] ==> View() == old(View()) && Drew([])
      ensures old(allStrokes) != [] ==>
        && View() == old(View()).(allStrokes := old(allStrokes)[..|old(allStrokes)| - 1])
        && Drew(WipeOps(canvas) + ReplayOps(allStrokes) + [SetStyle(MountPen.color, MountPen.width)])
    {
      if |allStrokes| == 0 {
        return;
      }
      var upd := allStrokes[..|allStrokes| - 1];
      ReplayAllStrokes(upd, MountPen);
      allStrokes := upd;
    }

    /** The `game_state` case: replay `strokes || []` paced, restoring the mount-time pen,
        make it the history, and set the host flag only for a truthy `hostId`. */
    method ApplyGameState(strokes: Option<seq<Stroke>>, hostId: Option<string>)
      requires Valid()
      modifies this, ctx
      ensures Valid()
      ensures View() == old(View()).(allStrokes := strokes.GetOr([]),
                                     isHost := if Truthy(hostId) then hostId.value == localId else old(isHost))
      ensures Drew(WipeOps(canvas) + PacedFrom(strokes.GetOr([]), 0, 0, MountPen))
    {
      var history := strokes.GetOr([]);
      ReplayAllStrokesWithDelay(history, MountPen);
      allStrokes := history;
      if Truthy(hostId) {
        isHost := hostId.value == localId;
      }
    }

    /** `handlePointerDown` at canvas position (x, y): for the host with a context, start a
        stroke at (x, y) in the viewer's pen, open a path there and send the start point. */
    method PointerDown(x: real, y: real)
      requires Valid()
      modifies this, ctx, socket
      ensures Valid()
      ensures var start := Point(Start, x, y, strokeColor, strokeWidth);
        if old(isHost) && ctx != null then
          && View() == old(View()).(drawing := true, currentStroke := [start])
          && Drew([BeginPath, MoveTo(x, y)]) && Sent([PointEnvelope(start)])
        else Untouched()
    {
      if !isHost {
        return;
      }
      if ctx == null {
        return;
      }
      drawing := true;
      currentStroke := [];
      ctx.Emit([BeginPath, MoveTo(x, y)]);
      var start := Point(Start, x, y, strokeColor, strokeWidth);
      currentStroke := currentStroke + [start];
      SendPoint.SendPoint(socket, start);
    }

    /** `handlePointerMove` at (x, y): while the host is drawing (and has a context), draw a
        line to (x, y), append a move point and send it. Every move is sent. */
    method PointerMove(x: real, y: real)
      requires Valid()
      modifies this, ctx, socket
      ensures Valid()
      ensures var move := Point(Move, x, y, strokeColor, strokeWidth);
        if old(drawing) && old(isHost) && ctx != null then
          && View() == old(View()).(currentStroke := old(currentStroke) + [move])
          && Drew([LineTo(x, y), StrokePath]) && Sent([PointEnvelope(move)])
        else Untouched()
    {
      if !drawing || !isHost {
        return;
      }
      if ctx == null {
        return;
      }
      ctx.Emit([LineTo(x, y), StrokePath]);
      var move := Point(Move, x, y, strokeColor, strokeWidth);
      currentStroke := currentStroke + [move];
      SendPoint.SendPoint(socket, move);
    }

    /** The effect of `finishStroke`: when drawing, stop; append the stroke of the points so
        far in the viewer's pen to the history; send it as a `stroke` envelope and then an
        `end` point at (0, 0), which is not part of the stroke; and forget the points. */
    twostate predicate StrokeFinished()
      reads this, ctx, socket
    {
      var done := Stroke(old(strokeColor), old(strokeWidth), old(currentStroke));
      var end := Point(End, 0.0, 0.0, old(strokeColor), old(strokeWidth));
      if old(drawing) then
        && View() == old(View()).(drawing := false, currentStroke := [], allStrokes := old(allStrokes) + [done])
        && Drew([]) && Sent([Outgoing(StrokeTag, StrokeBody(done)), PointEnvelope(end)])
      else Untouched()
    }

    /** `finishStroke`. A finished stroke is never empty, starts with its start point and
        holds no end point. */
    method FinishStroke()
      requires Valid()
      modifies this, socket
      ensures Valid()
      ensures StrokeFinished()
      ensures old(drawing) ==> InProgress(allStrokes[|allStrokes| - 1].paths)
    {
      if !drawing {
        return;
      }
      drawing := false;
      var completed := Stroke(strokeColor, strokeWidth, currentStroke);
      if socket != null {
        socket.Send(Outgoing(StrokeTag, StrokeBody(completed)));
      }
      allStrokes := allStrokes + [completed];
      currentStroke := [];
      var end := Point(End, 0.0, 0.0, strokeColor, strokeWidth);
      SendPoint.SendPoint(socket, end);
    }

    /** `handlePointerUp`: the host finishes the stroke; anyone else changes nothing. */
    method PointerUp()
      requires Valid()
      modifies this, ctx, socket
      ensures Valid()
      ensures if old(isHost) then StrokeFinished() else Untouched()
    {
      if !isHost {
        return;
      }
      FinishStroke();
    }

    /** `handlePointerLeave`: as pointer-up, checking first that a stroke is under way. */
    method PointerLeave()
      requires Valid()
      modifies this, ctx, socket
      ensures Valid()
      ensures if old(isHost) then StrokeFinished() else Untouched()
    {
      if !isHost {
        return;
      }
      if drawing {
        FinishStroke();
      }
    }

    /** `submitChatMsg`: send the trimmed text as a guess and empty the input box, unless
        there is no socket or the trimmed text is empty. */
    method SubmitChatMsg(msg: string)
      requires Valid()
      modifies this, socket
      ensures Valid()
      ensures var text := JsTrim(msg);
        if socket != null && text != "" then
          View() == old(View()).(input := "") && Sent([Outgoing(Guess, GuessBody(text))])
        else View() == old(View()) && Sent([])
    {
      var text := JsTrim(msg);
      if socket == null || text == "" {
        return;
      }
      socket.Send(Outgoing(Guess, GuessBody(text)));
      input := "";
    }

    /** `undoLast`: the host asks the server to undo; nothing changes locally. */
    method UndoLast()
      requires Valid()
      modifies socket
      ensures Valid()
      ensures old(isHost) ==> Sent([Outgoing(Undo, EmptyBody)])
      ensures !old(isHost) ==> Sent([])
    {
      if !isHost {
        return;
      }
      if socket != null {
        socket.Send(Outgoing(Undo, EmptyBody));
      }
    }
  }
}

=== FILE: menu.dfy ===
/** frontend/src/App.tsx: the start menu. Two options are cycled with the arrow keys and
    Enter acts on the selected one: join a room by id (asked for with a prompt) or create
    one. Once `roomId` is non-empty the game is shown instead of the menu. */
module Menu {
  import opened Wrappers

  const Options: seq<string> := ["Get Doodlin'", "Spin up your universe"]

  /** The ArrowUp updater over `n` options: the previous option, wrapping from the first to
      the last. */
  function Up(prev: int, n: nat): (r: int)
    requires n >= 1
    ensures 0 <= prev < n ==> 0 <= r < n
  {
    if prev == 0 then n - 1 else prev - 1
  }

  /** The ArrowDown updater over `n` options: the next option, wrapping from the last to the
      first. */
  function Down(prev: int, n: nat): (r: int)
    requires n >= 1
    ensures 0 <= prev < n ==> 0 <= r < n
  {
    if prev == n - 1 then 0 else prev + 1
  }

  /** On the options, the two updaters are a step backwards and forwards modulo `n`. */
  lemma UpDownAreModular(x: int, n: nat)
    requires 0 <= x < n
    ensures Up(x, n) == (x - 1) % n
    ensures Down(x, n) == (x + 1) % n
  {
    if x == 0 {
      assert (x - 1) % n == n - 1 by {
        assert x - 1 == (n - 1) - n;
      }
    }
    if x == n - 1 {
      assert (x + 1) % n == 0;
    }
  }

  /** ArrowDown then ArrowUp, or ArrowUp then ArrowDown, returns to the same option. */
  lemma UpDownInverse(x: int, n: nat)
    requires 0 <= x < n
    ensures Up(Down(x, n), n) == x
    ensures Down(Up(x, n), n) == x
  {
  }

  datatype Key = ArrowUp | ArrowDown | Enter | OtherKey(name: string)

  /** What `handler` starts for a selected option. */
  datatype Action = NoAction | JoinRoom | CreateRoom

  /** `handler`: option 0 joins, option 1 creates, anything else does nothing. */
  function Dispatch(selected: int): (a: Action)
    ensures a == JoinRoom <==> selected == 0
    ensures a == CreateRoom <==> selected == 1
  {
    if selected == 0 then JoinRoom
    else if selected == 1 then CreateRoom
    else NoAction
  }

  /** The selection after a key, as the updaters compute it. */
  function AfterKey(selected: int, key: Key): int {
    match key
    case ArrowUp => Up(selected, |Options|)
    case ArrowDown => Down(selected, |Options|)
    case _ => selected
  }

  /** The selection after a run of key presses. */
  function AfterKeys(selected: int, keys: seq<Key>): int
    decreases keys
  {
    if keys == [] then selected else AfterKeys(AfterKey(selected, keys[0]), keys[1..])
  }

  /** From any option, and so from the initial 0, every key sequence keeps the selection on
      one of the options. */
  lemma {:induction false} SelectionInRange(selected: int, keys: seq<Key>)
    requires 0 <= selected < |Options|
    ensures 0 <= AfterKeys(selected, keys) < |Options|
    decreases keys
  {
    if keys != [] {
      SelectionInRange(AfterKey(selected, keys[0]), keys[1..]);
    }
  }

  /** The room id after `handleJoinRoom` with the prompt's answer (`None` when cancelled):
      only a non-empty answer replaces it. */
  function JoinedRoom(roomId: string, answer: Option<string>): (r: string)
    ensures answer.None? || answer.value == "" ==> r == roomId
    ensures answer.Some? && answer.value != "" ==> r == answer.value && r != ""
  {
    if answer.Some? && answer.value != "" then answer.value else roomId
  }

  class StartMenu {
    var selectedOption: int
    var roomId: string

    ghost predicate Valid()
      reads this
    {
      0 <= selectedOption < |Options|
    }

    constructor ()
      ensures Valid() && selectedOption == 0 && roomId == ""
    {
      selectedOption := 0;
      roomId := "";
    }

    /** `onMouseEnter` on option `index`. */
    method Hover(index: int)
      requires Valid() && 0 <= index < |Options|
      modifies this
      ensures Valid() && selectedOption == index && roomId == old(roomId)
    {
      selectedOption := index;
    }

    /** `handleKeyPress`. For Enter, `answer` is what the join prompt returns; room creation
        is an HTTP request and only reported as the action taken. */
    method KeyDown(key: Key, answer: Option<string>) returns (action: Action)
      requires Valid()
      modifies this
      ensures Valid()
      ensures selectedOption == AfterKey(old(selectedOption), key)
      ensures action == if key.Enter? then Dispatch(old(selectedOption)) else NoAction
      ensures roomId == if action == JoinRoom then JoinedRoom(old(roomId), answer) else old(roomId)
    {
      action := NoAction;
      match key
      case ArrowUp =>
        selectedOption := Up(selectedOption, |Options|);
      case ArrowDown =>
        selectedOption := Down(selectedOption, |Options|);
      case Enter =>
        action := Dispatch(selectedOption);
        if action == JoinRoom {
          if answer.Some? && answer.value != "" {
            roomId := answer.value;
          }
        }
      case OtherKey(_) =>
    }
  }
}

=== FILE: normalize.dfy ===
/** frontend/src/core/lib/normalizeUiMsg.ts: turn an inbound envelope that is not a drawing
    or roster event into the chat/guess message the chat panel shows, or into nothing.
    Two wire shapes are accepted: a direct envelope tagged `chat_msg`, `correct_guess` or
    `close_guess`, and the legacy wrapper tagged `message` whose payload carries the real
    `type` and `data`. */
module Normalize {
  import opened Wrappers
  import opened Types

  /** The tag matched on: the wrapper's inner `type` when the envelope is a legacy wrapper
      and that inner type is truthy (present and non-empty), else the envelope's own tag. */
  function EffectiveTag(msg: WSMessage): (r: string)
    ensures msg.tag != "message" ==> r == msg.tag
    ensures r == msg.tag || (msg.tag == "message" && msg.data.kind == Some(r) && r != "")
    ensures msg.tag == "message" && msg.data.kind.Some? && msg.data.kind.value != "" ==> r == msg.data.kind.value
  {
    if msg.tag == "message" && msg.data.kind.Some? && msg.data.kind.value != "" then msg.data.kind.value
    else msg.tag
  }

  /** The payload read from: the wrapper's inner `data` when the envelope is a legacy wrapper
      carrying one, else the envelope's own payload. Decided independently of the tag. */
  function EffectivePayload(msg: WSMessage): (r: Payload)
    ensures msg.tag != "message" ==> r == msg.data
    ensures r == msg.data || (msg.tag == "message" && msg.data.inner == Some(r))
    ensures msg.tag == "message" && msg.data.inner.Some? ==> r == msg.data.inner.value
  {
    if msg.tag == "message" && msg.data.inner.Some? then msg.data.inner.value else msg.data
  }

  /** The sender synthesised when a chat payload has none. (The source's fallback for
      `Points` reads `sender?.Points`, which is always absent on this path, so it is 0.) */
  function FallbackSender(payload: Payload): Player {
    Player(payload.playerId.GetOr("unknown"), payload.playerName.GetOr("User"), 0)
  }

  /** `normalizeInbound(msg)`: a message exactly for the three chat/guess tags, carrying the
      tag matched on; `None` (the source's `null`) for every other tag. */
  function NormalizeInbound(msg: WSMessage): (r: Option<UiMessage>)
    ensures r.Some? <==> EffectiveTag(msg) in {"chat_msg", "correct_guess", "close_guess"}
    ensures r.Some? ==> TagName(UiTag(r.value)) == EffectiveTag(msg)
  {
    var payload := EffectivePayload(msg);
    match EffectiveTag(msg)
    case "chat_msg" =>
      Some(ChatMessage(
        match payload.sender case Some(p) => p case None => FallbackSender(payload),
        payload.message.GetOr("")))
    case "correct_guess" =>
      Some(CorrectGuessMessage(payload.playerId, payload.playerName, payload.message))
    case "close_guess" =>
      Some(CloseGuessMessage(payload.playerId, payload.playerName, payload.editDistance.GetOr(0), payload.message))
    case _ => None
  }

  /** A legacy-wrapped envelope normalises exactly as the direct envelope it wraps, whatever
      else the wrapper carries. (An inner tag of `message` is the one exception: unwrapping
      happens only once, so the wrapped form matches on `message` and is dropped.) */
  lemma LegacyUnwrap(inner: string, data: Payload, wrapper: Payload)
    requires wrapper.kind == Some(inner) && wrapper.inner == Some(data)
    requires inner != "message"
    ensures NormalizeInbound(WSMessage("message", wrapper)) == NormalizeInbound(WSMessage(inner, data))
  {
  }

  /** A wrapper without a truthy inner type is matched as `message` and dropped. */
  lemma BareWrapperDropped(wrapper: Payload)
    requires wrapper.kind.None? || wrapper.kind == Some("")
    ensures NormalizeInbound(WSMessage("message", wrapper)).None?
  {
  }

  /** Chat: the payload's `sender` verbatim when present, else one built from `playerId` and
      `playerName` with the literals "unknown" and "User" standing in and 0 points; the text
      defaults to "" only when absent (an empty string is kept). */
  lemma ChatDefaults(msg: WSMessage)
    requires EffectiveTag(msg) == "chat_msg"
    ensures var payload := EffectivePayload(msg);
            var r := NormalizeInbound(msg).value;
            && r.ChatMessage?
            && (payload.sender.Some? ==> r.sender == payload.sender.value)
            && (payload.sender.None? ==> r.sender == Player(payload.playerId.GetOr("unknown"), payload.playerName.GetOr("User"), 0))
            && r.text == (if payload.message.Some? then payload.message.value else "")
  {
  }

  /** Correct guess: the three fields copied unchanged, absent ones staying absent. */
  lemma CorrectGuessCopies(msg: WSMessage)
    requires EffectiveTag(msg) == "correct_guess"
    ensures var payload := EffectivePayload(msg);
            NormalizeInbound(msg) == Some(CorrectGuessMessage(payload.playerId, payload.playerName, payload.message))
  {
  }

  /** Close guess: the fields copied, and an absent edit distance read as 0. */
  lemma CloseGuessDefaults(msg: WSMessage)
    requires EffectiveTag(msg) == "close_guess"
    ensures var payload := EffectivePayload(msg);
            var r := NormalizeInbound(msg).value;
            && r.CloseGuessMessage?
            && r.playerId == payload.playerId && r.playerName == payload.playerName && r.message == payload.message
            && r.editDistance == (if payload.editDistance.Some? then payload.editDistance.value else 0)
  {
  }

  /** A chat message always has the declared shape; a guess has it exactly when the payload
      carried every field the interface declares required. */
  lemma NormalizedConforms(msg: WSMessage)
    requires NormalizeInbound(msg).Some?
    ensures var payload := EffectivePayload(msg);
            Conforms(NormalizeInbound(msg).value) <==>
              match EffectiveTag(msg)
              case "chat_msg" => true
              case "correct_guess" => payload.playerId.Some? && payload.playerName.Some? && payload.message.Some?
              case _ => payload.playerId.Some? && payload.playerName.Some?
  {
  }
}

=== FILE: replay.dfy ===
/** The two replays of frontend/src/Game.tsx that redraw the stroke history from a blank
    canvas: the instant one (`replayAllStrokes`, used after an undo) and the paced one
    (`replayAllStrokesWithDelay`, used on `game_state`), here as the call sequences they
    make. The paced replay is an explicit stepper over a cursor (s, p): stroke index and
    point index. The timer that spaces the steps is not modelled. */
module Replay {
  import opened Types
  import opened Canvas

  const DefaultColor: string := "#000000"
  const DefaultWidth: real := 3.0

  /** The style a stroke is redrawn with: `strokeColor || "#000000"` and `strokeWidth || 3`
      (an empty colour or a zero width is falsy and replaced). */
  function EffectiveStyle(st: Stroke): (r: Style)
    ensures r.color != "" && r.width != 0.0
    ensures st.strokeColor != "" ==> r.color == st.strokeColor
    ensures st.strokeWidth != 0.0 ==> r.width == st.strokeWidth
    ensures st.strokeColor == "" ==> r.color == DefaultColor
    ensures st.strokeWidth == 0.0 ==> r.width == DefaultWidth
  {
    Style(if st.strokeColor == "" then DefaultColor else st.strokeColor,
          if st.strokeWidth == 0.0 then DefaultWidth else st.strokeWidth)
  }

  // ---------------------------------------------------------------------------------------
  // What a replay should show: every point of every stroke, in order, in its stroke's style.

  /** The visits of the points `pts`, all in style `e`. */
  function PointDots(pts: seq<Point>, e: Style): (r: seq<Dot>)
    ensures |r| == |pts|
  {
    if pts == [] then [] else [Dot(pts[0].x, pts[0].y, e)] + PointDots(pts[1..], e)
  }

  /** The visits one stroke makes. */
  function StrokeDots(st: Stroke): seq<Dot> {
    PointDots(st.paths, EffectiveStyle(st))
  }

  /** The visits of a whole history, stroke after stroke. */
  function Dots(strokes: seq<Stroke>): seq<Dot> {
    if strokes == [] then [] else StrokeDots(strokes[0]) + Dots(strokes[1..])
  }

  lemma {:induction false} PointDotsSnoc(pts: seq<Point>, q: Point, e: Style)
    ensures PointDots(pts + [q], e) == PointDots(pts, e) + [Dot(q.x, q.y, e)]
  {
    if pts != [] {
      assert (pts + [q])[1..] == pts[1..] + [q];
      PointDotsSnoc(pts[1..], q, e);
    } else {
      assert pts + [q] == [q];
    }
  }

  lemma {:induction false} DotsSnoc(strokes: seq<Stroke>, st: Stroke)
    ensures Dots(strokes + [st]) == Dots(strokes) + StrokeDots(st)
  {
    if strokes != [] {
      assert (strokes + [st])[1..] == strokes[1..] + [st];
      DotsSnoc(strokes[1..], st);
    } else {
      assert strokes + [st] == [st];
    }
  }

  // ---------------------------------------------------------------------------------------
  // The instant replay.

  /** The call for point `i` of a stroke's path: the first moves the pen, the rest draw lines. */
  function PointOp(pts: seq<Point>, i: nat): CanvasOp
    requires i < |pts|
  {
    if i == 0 then MoveTo(pts[i].x, pts[i].y) else LineTo(pts[i].x, pts[i].y)
  }

  /** The calls for the first `n` points of a path: call `i` is point `i`'s. */
  function PathOps(pts: seq<Point>, n: nat): (ops: seq<CanvasOp>)
    requires n <= |pts|
    ensures |ops| == n
    ensures forall i :: 0 <= i < n ==> ops[i] == PointOp(pts, i)
  {
    if n == 0 then [] else PathOps(pts, n - 1) + [PointOp(pts, n - 1)]
  }

  /** The calls `replayAllStrokes` makes for one stroke: a new path in the stroke's style
      through all its points, in order, stroked once at the end. */
  function StrokeOps(st: Stroke): (ops: seq<CanvasOp>)
    ensures |ops| == |st.paths| + 3
    ensures ops[0] == BeginPath && ops[|ops| - 1] == StrokePath
    ensures ops[1] == SetStyle(EffectiveStyle(st).color, EffectiveStyle(st).width)
    ensures NoClear(ops)
  {
    var e := EffectiveStyle(st);
    [BeginPath, SetStyle(e.color, e.width)] + PathOps(st.paths, |st.paths|) + [StrokePath]
  }

  /** The calls `replayAllStrokes` makes for a history, before it restores the viewer's
      style: the strokes' calls one after the other, and never a wipe. */
  function ReplayOps(strokes: seq<Stroke>): (ops: seq<CanvasOp>)
    ensures NoClear(ops)
  {
    if strokes == [] then []
    else
      var init := ReplayOps(strokes[..|strokes| - 1]);
      var last := StrokeOps(strokes[|strokes| - 1]);
      NoClearAppend(init, last);
      init + last
  }

  /** The instant replay of one more stroke of a history. */
  lemma ReplayOpsSnoc(strokes: seq<Stroke>, k: nat)
    requires k < |strokes|
    ensures ReplayOps(strokes[..k + 1]) == ReplayOps(strokes[..k]) + StrokeOps(strokes[k])
  {
    assert strokes[..k + 1][..k] == strokes[..k];
  }

  lemma {:induction false} PathOpsTrace(pts: seq<Point>, n: nat, e: Style)
    requires n <= |pts|
    ensures KeepsStyle(PathOps(pts, n)) && NoClear(PathOps(pts, n))
    ensures Trace(PathOps(pts, n), e) == PointDots(pts[..n], e)
  {
    if n > 0 {
      PathOpsTrace(pts, n - 1, e);
      var prefix := PathOps(pts, n - 1);
      var op := PointOp(pts, n - 1);
      TraceAppend(prefix, [op], e);
      KeepsStyleFinal(prefix, e);
      assert Trace([op], e) == [Dot(pts[n - 1].x, pts[n - 1].y, e)];
      assert pts[..n] == pts[..n - 1] + [pts[n - 1]];
      PointDotsSnoc(pts[..n - 1], pts[n - 1], e);
    }
  }

  /** One stroke of the instant replay visits exactly that stroke's points, in its own style,
      and leaves that style active. */
  lemma StrokeOpsTrace(st: Stroke, before: Style)
    ensures NoClear(StrokeOps(st))
    ensures Trace(StrokeOps(st), before) == StrokeDots(st)
    ensures FinalStyle(StrokeOps(st), before) == EffectiveStyle(st)
  {
    var e := EffectiveStyle(st);
    var head := [BeginPath, SetStyle(e.color, e.width)];
    var body := PathOps(st.paths, |st.paths|);
    PathOpsTrace(st.paths, |st.paths|, e);
    assert st.paths[..|st.paths|] == st.paths;
    assert head == [BeginPath] + [SetStyle(e.color, e.width)];
    TraceOne(BeginPath, before);
    TraceOne(SetStyle(e.color, e.width), before);
    TraceAppend([BeginPath], [SetStyle(e.color, e.width)], before);
    TraceAppend(head, body, before);
    KeepsStyleFinal(body, e);
    TraceAppend(head + body, [StrokePath], before);
    TraceOne(StrokePath, e);
    NoClearAppend(head, body);
    NoClearAppend(head + body, [StrokePath]);
  }

  /** The instant replay visits every point of every stroke exactly once, in history order,
      each in its stroke's style, and then leaves the viewer's style active. It never wipes. */
  lemma {:induction false} ReplayTrace(strokes: seq<Stroke>, viewer: Style, before: Style)
    ensures NoClear(ReplayOps(strokes))
    ensures Trace(ReplayOps(strokes), before) == Dots(strokes)
    ensures FinalStyle(ReplayOps(strokes) + [SetStyle(viewer.color, viewer.width)], before) == viewer
  {
    if strokes != [] {
      var init := strokes[..|strokes| - 1];
      var last := strokes[|strokes| - 1];
      assert ReplayOps(strokes) == ReplayOps(init) + StrokeOps(last);
      ReplayTrace(init, viewer, before);
      var mid := FinalStyle(ReplayOps(init), before);
      StrokeOpsTrace(last, mid);
      TraceAppend(ReplayOps(init), StrokeOps(last), before);
      assert strokes == init + [last];
      DotsSnoc(init, last);
      NoClearAppend(ReplayOps(init), StrokeOps(last));
    }
    SetStyleLast(ReplayOps(strokes), viewer, before);
  }

  /** Whatever came before, a log that ends by setting a style leaves that style active. */
  lemma SetStyleLast(ops: seq<CanvasOp>, st: Style, before: Style)
    ensures FinalStyle(ops + [SetStyle(st.color, st.width)], before) == st
  {
    TraceAppend(ops, [SetStyle(st.color, st.width)], before);
  }

  // ---------------------------------------------------------------------------------------
  // The paced replay.

  /** The number of points in the strokes from index `s` on. */
  function PointsFrom(strokes: seq<Stroke>, s: nat): nat
    decreases |strokes| - s
  {
    if s >= |strokes| then 0 else |strokes[s].paths| + PointsFrom(strokes, s + 1)
  }

  /** A cursor the paced replay can be at: a stroke index no further than the end, and a
      point index inside that stroke (or 0 when the stroke has no points). */
  predicate ValidCursor(strokes: seq<Stroke>, s: nat, p: nat) {
    s <= |strokes| &&
    (if s < |strokes| then p < |strokes[s].paths| || p == 0 else p == 0)
  }

  /** The points not yet painted when the cursor is at (s, p). */
  function Remaining(strokes: seq<Stroke>, s: nat, p: nat): nat
    requires ValidCursor(strokes, s, p)
  {
    if s == |strokes| then 0 else PointsFrom(strokes, s) - p
  }

  /** What a call of `drawNextPoint` leads to: the next call is scheduled at a new cursor,
      the history is exhausted and the viewer's style restored, or the call throws, which
      ends the chain. It throws reading a field of `strokes[s]` past the last stroke, or
      reading `pt.x` when the stroke has no point at index `p`. */
  datatype Outcome = Next(s: nat, p: nat) | Done | Crash

  datatype StepResult = StepResult(ops: seq<CanvasOp>, outcome: Outcome)

  /** How `drawNextPoint` paints point `p` of a path: the call the instant replay makes for
      that point, preceded by a new path at the first point of a stroke. */
  function PaintOps(pts: seq<Point>, p: nat): (ops: seq<CanvasOp>)
    requires p < |pts|
    ensures ops == (if p == 0 then [BeginPath] else []) + [PointOp(pts, p)]
    ensures NoClear(ops) && KeepsStyle(ops)
  {
    if p == 0 then [BeginPath, MoveTo(pts[p].x, pts[p].y)] else [LineTo(pts[p].x, pts[p].y)]
  }

  lemma PaintTrace(pts: seq<Point>, p: nat, e: Style)
    requires p < |pts|
    ensures Trace(PaintOps(pts, p), e) == [Dot(pts[p].x, pts[p].y, e)]
  {
    if p == 0 {
      assert PaintOps(pts, p) == [BeginPath] + [MoveTo(pts[p].x, pts[p].y)];
      TraceOne(BeginPath, e);
      TraceOne(MoveTo(pts[p].x, pts[p].y), e);
      TraceAppend([BeginPath], [MoveTo(pts[p].x, pts[p].y)], e);
    } else {
      TraceOne(LineTo(pts[p].x, pts[p].y), e);
    }
  }

  /** One call of `drawNextPoint` at cursor (s, p): set the stroke's style, paint the point
      (a new path at the first point of a stroke, a line otherwise) and stroke it, then
      advance the cursor by one point. On a stroke without points the style is set and a
      path begun before the throw; past the last stroke nothing is called. */
  function Step(strokes: seq<Stroke>, s: nat, p: nat, viewer: Style): (r: StepResult)
    requires ValidCursor(strokes, s, p)
    ensures r.outcome.Next? ==> ValidCursor(strokes, r.outcome.s, r.outcome.p)
    ensures r.outcome.Crash? <==> s == |strokes| || strokes[s].paths == []
    ensures NoClear(r.ops)
    ensures s == |strokes| ==> r.ops == []
    ensures s < |strokes| && strokes[s].paths == [] ==>
      r.ops == [SetStyle(EffectiveStyle(strokes[s]).color, EffectiveStyle(strokes[s]).width), BeginPath]
  {
    if s >= |strokes| then StepResult([], Crash)
    else
      var stroke := strokes[s];
      var e := EffectiveStyle(stroke);
      var style := [SetStyle(e.color, e.width)];
      if p >= |stroke.paths| then StepResult(style + [BeginPath], Crash)
      else
        var draw := PaintOps(stroke.paths, p);
        var last := p + 1 >= |stroke.paths|;
        var s' := if last then s + 1 else s;
        var p' := if last then 0 else p + 1;
        if s' < |strokes| then StepResult(style + draw + [StrokePath], Next(s', p'))
        else StepResult(style + draw + [StrokePath] + [SetStyle(viewer.color, viewer.width)], Done)
  }

  /** Every call the paced replay makes from cursor (s, p) on, until the chain ends. The
      chain never wipes the canvas itself. */
  function PacedFrom(strokes: seq<Stroke>, s: nat, p: nat, viewer: Style): (ops: seq<CanvasOp>)
    requires ValidCursor(strokes, s, p)
    ensures NoClear(ops)
    decreases Remaining(strokes, s, p)
  {
    var r := Step(strokes, s, p, viewer);
    StepMeasure(strokes, s, p, viewer);
    match r.outcome
    case Next(s', p') =>
      var rest := PacedFrom(strokes, s', p', viewer);
      NoClearAppend(r.ops, rest);
      r.ops + rest
    case _ => r.ops
  }

  /** The chain from a cursor: this step's calls, then the chain from the next cursor, if
      the step scheduled one. */
  lemma PacedUnfold(strokes: seq<Stroke>, s: nat, p: nat, viewer: Style)
    requires ValidCursor(strokes, s, p)
    ensures var r := Step(strokes, s, p, viewer);
      PacedFrom(strokes, s, p, viewer)
      == r.ops + (if r.outcome.Next? then PacedFrom(strokes, r.outcome.s, r.outcome.p, viewer) else [])
  {
    var r := Step(strokes, s, p, viewer);
    if !r.outcome.Next? {
      assert r.ops + [] == r.ops;
    }
  }

  /** The calls of a step at a real point: the stroke's style, a new path at the stroke's
      first point only, the instant replay's call for that point, `stroke()`, and the viewer's
      pen after the last point of the last stroke; the cursor moves to the next point, or to
      the start of the next stroke. */
  lemma StepCalls(strokes: seq<Stroke>, s: nat, p: nat, viewer: Style)
    requires s < |strokes| && p < |strokes[s].paths|
    ensures var r := Step(strokes, s, p, viewer);
      var e := EffectiveStyle(strokes[s]);
      && r.ops == [SetStyle(e.color, e.width)] + (if p == 0 then [BeginPath] else [])
                  + [PointOp(strokes[s].paths, p), StrokePath]
                  + (if r.outcome.Done? then [SetStyle(viewer.color, viewer.width)] else [])
      && (r.outcome.Done? <==> s + 1 == |strokes| && p + 1 == |strokes[s].paths|)
      && (r.outcome.Next? ==> r.outcome == if p + 1 < |strokes[s].paths| then Next(s, p + 1) else Next(s + 1, 0))
  {
  }

  /** A paced step makes, for its point, the very call the instant replay makes for that
      point, and strokes the path straight after it. */
  lemma StepCallMatchesInstant(strokes: seq<Stroke>, s: nat, p: nat, viewer: Style)
    requires s < |strokes| && p < |strokes[s].paths|
    ensures var r := Step(strokes, s, p, viewer);
      var k := if p == 0 then 2 else 1;
      |r.ops| > k + 1 && r.ops[k] == StrokeOps(strokes[s])[p + 2] && r.ops[k + 1] == StrokePath
  {
    var st := strokes[s];
    var e := EffectiveStyle(st);
    var path := PathOps(st.paths, |st.paths|);
    assert StrokeOps(st) == [BeginPath, SetStyle(e.color, e.width)] + path + [StrokePath];
    assert StrokeOps(st)[p + 2] == path[p];
  }

  /** A step that schedules another has painted one point: one fewer remains. */
  lemma StepMeasure(strokes: seq<Stroke>, s: nat, p: nat, viewer: Style)
    requires ValidCursor(strokes, s, p)
    ensures var r := Step(strokes, s, p, viewer);
      r.outcome.Next? ==> Remaining(strokes, r.outcome.s, r.outcome.p) == Remaining(strokes, s, p) - 1
  {
  }

  /** The strokes before the first one without points. */
  function TakeDrawable(strokes: seq<Stroke>): (r: seq<Stroke>)
    ensures |r| <= |strokes| && r == strokes[..|r|]
  {
    if strokes == [] || strokes[0].paths == [] then [] else [strokes[0]] + TakeDrawable(strokes[1..])
  }

  /** The style the paced replay leaves active once it has started on `rest`: the viewer's if
      every stroke has points, else that of the first stroke without points, where it throws. */
  function EndStyle(rest: seq<Stroke>, viewer: Style): Style {
    if rest == [] then viewer
    else if rest[0].paths == [] then EffectiveStyle(rest[0])
    else EndStyle(rest[1..], viewer)
  }

  /** Every stroke has at least one point. */
  predicate AllDrawable(strokes: seq<Stroke>) {
    forall i :: 0 <= i < |strokes| ==> strokes[i].paths != []
  }

  lemma {:induction false} AllDrawableTake(strokes: seq<Stroke>, viewer: Style)
    requires AllDrawable(strokes)
    ensures TakeDrawable(strokes) == strokes
    ensures EndStyle(strokes, viewer) == viewer
  {
    if strokes != [] {
      assert strokes[0].paths != [];
      AllDrawableTake(strokes[1..], viewer);
    }
  }

  /** The calls of one step that paints a point: one visit in the stroke's style. */
  lemma StepTrace(strokes: seq<Stroke>, s: nat, p: nat, viewer: Style, before: Style)
    requires s < |strokes| && p < |strokes[s].paths|
    ensures NoClear(Step(strokes, s, p, viewer).ops)
    ensures Trace(Step(strokes, s, p, viewer).ops, before)
            == [Dot(strokes[s].paths[p].x, strokes[s].paths[p].y, EffectiveStyle(strokes[s]))]
    ensures FinalStyle(Step(strokes, s, p, viewer).ops, before)
            == if Step(strokes, s, p, viewer).outcome.Done? then viewer else EffectiveStyle(strokes[s])
  {
    var r := Step(strokes, s, p, viewer);
    var e := EffectiveStyle(strokes[s]);
    var pt := strokes[s].paths[p];
    var style := [SetStyle(e.color, e.width)];
    var draw := PaintOps(strokes[s].paths, p);
    TraceOne(SetStyle(e.color, e.width), before);
    TraceAppend(style, draw, before);
    PaintTrace(strokes[s].paths, p, e);
    KeepsStyleFinal(draw, e);
    TraceAppend(style + draw, [StrokePath], before);
    TraceOne(StrokePath, e);
    NoClearAppend(style, draw);
    NoClearAppend(style + draw, [StrokePath]);
    if r.outcome.Done? {
      var fin := [SetStyle(viewer.color, viewer.width)];
      TraceAppend(style + draw + [StrokePath], fin, before);
      TraceOne(SetStyle(viewer.color, viewer.width), e);
      NoClearAppend(style + draw + [StrokePath], fin);
    }
  }

  lemma PointDotsFrom(pts: seq<Point>, p: nat, e: Style)
    requires p < |pts|
    ensures PointDots(pts[p..], e) == [Dot(pts[p].x, pts[p].y, e)] + PointDots(pts[p + 1..], e)
  {
    assert pts[p..][0] == pts[p] && pts[p..][1..] == pts[p + 1..];
  }

  /** A step that paints a point and schedules another: that point's dot, then the rest of
      the chain in the stroke's style. */
  lemma PacedHead(strokes: seq<Stroke>, s: nat, p: nat, viewer: Style, before: Style)
    requires s < |strokes| && p < |strokes[s].paths| && Step(strokes, s, p, viewer).outcome.Next?
    ensures var next := Step(strokes, s, p, viewer).outcome;
            var rest := PacedFrom(strokes, next.s, next.p, viewer);
            var e := EffectiveStyle(strokes[s]);
            var pt := strokes[s].paths[p];
            && Trace(PacedFrom(strokes, s, p, viewer), before) == [Dot(pt.x, pt.y, e)] + Trace(rest, e)
            && FinalStyle(PacedFrom(strokes, s, p, viewer), before) == FinalStyle(rest, e)
  {
    var r := Step(strokes, s, p, viewer);
    var rest := PacedFrom(strokes, r.outcome.s, r.outcome.p, viewer);
    StepTrace(strokes, s, p, viewer, before);
    assert PacedFrom(strokes, s, p, viewer) == r.ops + rest;
    TraceAppend(r.ops, rest, before);
  }

  /** Putting one dot in front of the dots of a path's later points. */
  lemma PointDotsCons(pts: seq<Point>, p: nat, e: Style, others: seq<Dot>, t: seq<Dot>)
    requires p + 1 < |pts|
    requires t == PointDots(pts[p + 1..], e) + others
    ensures [Dot(pts[p].x, pts[p].y, e)] + t == PointDots(pts[p..], e) + others
  {
    PointDotsFrom(pts, p, e);
  }

  /** The paced replay from a cursor inside a stroke: the rest of that stroke's points, then
      the following strokes up to the first one without points. */
  lemma {:induction false} PacedTraceFrom(strokes: seq<Stroke>, s: nat, p: nat, viewer: Style, before: Style)
    requires s < |strokes| && p < |strokes[s].paths|
    ensures Trace(PacedFrom(strokes, s, p, viewer), before)
            == PointDots(strokes[s].paths[p..], EffectiveStyle(strokes[s])) + Dots(TakeDrawable(strokes[s + 1..]))
    ensures FinalStyle(PacedFrom(strokes, s, p, viewer), before) == EndStyle(strokes[s + 1..], viewer)
    decreases Remaining(strokes, s, p), 0
  {
    var e := EffectiveStyle(strokes[s]);
    if p + 1 < |strokes[s].paths| {
      PacedTraceFrom(strokes, s, p + 1, viewer, e);
      PacedWithinStroke(strokes, s, p, viewer, before);
    } else if s + 1 < |strokes| {
      PacedTraceAt(strokes, s + 1, viewer, e);
      PacedAcrossStrokes(strokes, s, p, viewer, before);
    } else {
      PacedLastPoint(strokes, s, p, viewer, before);
    }
  }

  /** The dot of a path's last point, followed by others. */
  lemma PointDotsLast(pts: seq<Point>, p: nat, e: Style, others: seq<Dot>)
    requires p + 1 == |pts|
    ensures [Dot(pts[p].x, pts[p].y, e)] + others == PointDots(pts[p..], e) + others
  {
    PointDotsFrom(pts, p, e);
    assert pts[p + 1..] == [];
  }

  /** The step at a point that is not its stroke's last, given the chain after it. */
  lemma PacedWithinStroke(strokes: seq<Stroke>, s: nat, p: nat, viewer: Style, before: Style)
    requires s < |strokes| && p + 1 < |strokes[s].paths|
    requires var e := EffectiveStyle(strokes[s]);
      && Trace(PacedFrom(strokes, s, p + 1, viewer), e)
         == PointDots(strokes[s].paths[p + 1..], e) + Dots(TakeDrawable(strokes[s + 1..]))
      && FinalStyle(PacedFrom(strokes, s, p + 1, viewer), e) == EndStyle(strokes[s + 1..], viewer)
    ensures Trace(PacedFrom(strokes, s, p, viewer), before)
            == PointDots(strokes[s].paths[p..], EffectiveStyle(strokes[s])) + Dots(TakeDrawable(strokes[s + 1..]))
    ensures FinalStyle(PacedFrom(strokes, s, p, viewer), before) == EndStyle(strokes[s + 1..], viewer)
  {
    var e := EffectiveStyle(strokes[s]);
    assert Step(strokes, s, p, viewer).outcome == Next(s, p + 1);
    PacedHead(strokes, s, p, viewer, before);
    PointDotsCons(strokes[s].paths, p, e, Dots(TakeDrawable(strokes[s + 1..])),
                  Trace(PacedFrom(strokes, s, p + 1, viewer), e));
  }

  /** The step at the last point of a stroke that is not the last one, given the chain from
      the next stroke on. */
  lemma PacedAcrossStrokes(strokes: seq<Stroke>, s: nat, p: nat, viewer: Style, before: Style)
    requires s + 1 < |strokes| && p + 1 == |strokes[s].paths|
    requires var e := EffectiveStyle(strokes[s]);
      && Trace(PacedFrom(strokes, s + 1, 0, viewer), e) == Dots(TakeDrawable(strokes[s + 1..]))
      && FinalStyle(PacedFrom(strokes, s + 1, 0, viewer), e) == EndStyle(strokes[s + 1..], viewer)
    ensures Trace(PacedFrom(strokes, s, p, viewer), before)
            == PointDots(strokes[s].paths[p..], EffectiveStyle(strokes[s])) + Dots(TakeDrawable(strokes[s + 1..]))
    ensures FinalStyle(PacedFrom(strokes, s, p, viewer), before) == EndStyle(strokes[s + 1..], viewer)
  {
    var e := EffectiveStyle(strokes[s]);
    assert Step(strokes, s, p, viewer).outcome == Next(s + 1, 0);
    PacedHead(strokes, s, p, viewer, before);
    PointDotsLast(strokes[s].paths, p, e, Dots(TakeDrawable(strokes[s + 1..])));
  }

  /** The step at the last point of the last stroke ends the chain. */
  lemma PacedLastPoint(strokes: seq<Stroke>, s: nat, p: nat, viewer: Style, before: Style)
    requires s + 1 == |strokes| && p + 1 == |strokes[s].paths|
    ensures Trace(PacedFrom(strokes, s, p, viewer), before)
            == PointDots(strokes[s].paths[p..], EffectiveStyle(strokes[s])) + Dots(TakeDrawable(strokes[s + 1..]))
    ensures FinalStyle(PacedFrom(strokes, s, p, viewer), before) == EndStyle(strokes[s + 1..], viewer)
  {
    var r := Step(strokes, s, p, viewer);
    assert r.outcome == Done;
    assert PacedFrom(strokes, s, p, viewer) == r.ops;
    StepTrace(strokes, s, p, viewer, before);
    PointDotsFrom(strokes[s].paths, p, EffectiveStyle(strokes[s]));
    assert strokes[s + 1..] == [] && strokes[s].paths[p + 1..] == [];
  }

  /** The paced replay from the first point of stroke `t`: the strokes from `t` up to the
      first one without points. */
  lemma {:induction false} PacedTraceAt(strokes: seq<Stroke>, t: nat, viewer: Style, before: Style)
    requires t <= |strokes|
    ensures Trace(PacedFrom(strokes, t, 0, viewer), before) == Dots(TakeDrawable(strokes[t..]))
    ensures FinalStyle(PacedFrom(strokes, t, 0, viewer), before)
            == if t == |strokes| then before else EndStyle(strokes[t..], viewer)
    decreases Remaining(strokes, t, 0), 1
  {
    if t == |strokes| {
      assert strokes[t..] == [];
    } else if strokes[t].paths == [] {
      var e := EffectiveStyle(strokes[t]);
      assert PacedFrom(strokes, t, 0, viewer) == [SetStyle(e.color, e.width)] + [BeginPath];
      TraceOne(SetStyle(e.color, e.width), before);
      TraceOne(BeginPath, e);
      TraceAppend([SetStyle(e.color, e.width)], [BeginPath], before);
      assert strokes[t..][0] == strokes[t];
    } else {
      PacedTraceFrom(strokes, t, 0, viewer, before);
      var tail := strokes[t..];
      assert tail[0] == strokes[t] && tail[1..] == strokes[t + 1..];
      assert strokes[t].paths[0..] == strokes[t].paths;
      var taken := TakeDrawable(tail);
      assert taken == [strokes[t]] + TakeDrawable(tail[1..]);
      assert taken[0] == strokes[t] && taken[1..] == TakeDrawable(tail[1..]);
    }
  }

  /** The paced replay from the start paints every point of the strokes before the first one
      without points, exactly once and in order, each in its stroke's style; it leaves the
      viewer's style active only when every stroke has points (and there is at least one).
      An empty history paints nothing and throws on its first step. */
  lemma PacedTrace(strokes: seq<Stroke>, viewer: Style, before: Style)
    ensures NoClear(PacedFrom(strokes, 0, 0, viewer))
    ensures Trace(PacedFrom(strokes, 0, 0, viewer), before) == Dots(TakeDrawable(strokes))
    ensures FinalStyle(PacedFrom(strokes, 0, 0, viewer), before)
            == if strokes == [] then before else EndStyle(strokes, viewer)
  {
    PacedTraceAt(strokes, 0, viewer, before);
    assert strokes[0..] == strokes;
  }

  /** When every stroke has points, the two replays paint the same points in the same order
      with the same styles, and both finish with the viewer's style active. */
  lemma ReplaysAgree(strokes: seq<Stroke>, viewer: Style, before: Style)
    requires strokes != [] && AllDrawable(strokes)
    ensures Trace(PacedFrom(strokes, 0, 0, viewer), before)
            == Trace(ReplayOps(strokes) + [SetStyle(viewer.color, viewer.width)], before)
            == Dots(strokes)
    ensures FinalStyle(PacedFrom(strokes, 0, 0, viewer), before) == viewer
  {
    PacedTrace(strokes, viewer, before);
    AllDrawableTake(strokes, viewer);
    ReplayTrace(strokes, viewer, before);
    TraceAppend(ReplayOps(strokes), [SetStyle(viewer.color, viewer.width)], before);
  }

  /** Each step of the paced replay paints one point, so a history whose strokes all have
      points is finished after exactly as many steps as it has points. */
  lemma {:induction false} PacedStepCount(strokes: seq<Stroke>, s: nat, p: nat, viewer: Style)
    requires ValidCursor(strokes, s, p)
    requires AllDrawable(strokes) && s < |strokes|
    ensures StepsToEnd(strokes, s, p, viewer) == Remaining(strokes, s, p)
    decreases Remaining(strokes, s, p)
  {
    var r := Step(strokes, s, p, viewer);
    StepMeasure(strokes, s, p, viewer);
    assert strokes[s].paths != [];
    match r.outcome
    case Next(s', p') =>
      PacedStepCount(strokes, s', p', viewer);
    case Done =>
      assert s + 1 == |strokes| && p + 1 == |strokes[s].paths|;
      assert PointsFrom(strokes, s + 1) == 0;
    case Crash =>
  }

  /** The number of `drawNextPoint` calls from cursor (s, p) to the end of the chain. */
  function StepsToEnd(strokes: seq<Stroke>, s: nat, p: nat, viewer: Style): nat
    requires ValidCursor(strokes, s, p)
    decreases Remaining(strokes, s, p)
  {
    var r := Step(strokes, s, p, viewer);
    StepMeasure(strokes, s, p, viewer);
    match r.outcome
    case Next(s', p') => 1 + StepsToEnd(strokes, s', p', viewer)
    case _ => 1
  }
}

=== FILE: roomlink.dfy ===
/** backend/test/test.go, `extractRoomIdFromLink`: recover a room id from a game link. The
    link has already been through `url.Parse`; the model takes the three parts it looks at,
    or the parse error. */
module RoomLink {
  import opened Wrappers
  import opened Text

  /** The parts of a parsed URL the extractor reads: the first `roomId` query value ("" when
      absent), the raw query text after `?`, and the fragment after `#`. */
  datatype ParsedUrl = ParsedUrl(queryRoomId: string, rawQuery: string, fragment: string)

  const Key: string := "roomId="

  /** The fragment rules: the text after the first `roomId=` up to the next `&`, or else a
      fragment without `=` minus one leading `/`; "" when neither applies. */
  function FromFragment(fragment: string): (id: string)
    ensures Contains(fragment, Key) ==> !Contains(id, "&")
  {
    if Contains(fragment, Key) && |Split(fragment, Key)| > 1 then
      SplitPiecesClean(Split(fragment, Key)[1], "&");
      Split(Split(fragment, Key)[1], "&")[0]
    else if !Contains(fragment, "=") && TrimPrefix(fragment, "/") != "" then
      TrimPrefix(fragment, "/")
    else ""
  }

  /** Text holding `roomId=` holds `=`. */
  lemma KeyHasEquals(s: string)
    ensures Contains(s, Key) ==> Contains(s, "=")
  {
    if Contains(s, Key) {
      var i := IndexOf(s, Key).value;
      assert s[i + 6..i + 7] == Key[6..7];
      ContainsIff(s, "=", i + 6);
    }
  }

  /** `extractRoomIdFromLink`, trying the rules in order. */
  function ExtractRoomId(parsed: Result<ParsedUrl, string>): (id: string)
    ensures parsed.Failure? ==> id == ""
  {
    match parsed
    case Failure(_) => ""
    case Success(u) =>
      if u.queryRoomId != "" then u.queryRoomId
      else if u.rawQuery != "" && !Contains(u.rawQuery, "=") then u.rawQuery
      else if u.fragment != "" then FromFragment(u.fragment)
      else ""
  }

  /** Neither earlier rule applies: no `roomId` query value and no bare query. */
  predicate QueryGivesNothing(u: ParsedUrl) {
    u.queryRoomId == "" && (u.rawQuery == "" || Contains(u.rawQuery, "="))
  }

  /** A `roomId` query value wins over everything else. */
  lemma QueryFirst(u: ParsedUrl)
    requires u.queryRoomId != ""
    ensures ExtractRoomId(Success(u)) == u.queryRoomId
  {
  }

  /** Otherwise a non-empty query without `=` is the id, as it stands. */
  lemma BareQuery(u: ParsedUrl)
    requires u.queryRoomId == "" && u.rawQuery != "" && !Contains(u.rawQuery, "=")
    ensures ExtractRoomId(Success(u)) == u.rawQuery
    ensures !Contains(ExtractRoomId(Success(u)), "=")
  {
  }

  /** Otherwise a fragment holding `roomId=` gives the text between its first `roomId=` and
      the next `roomId=`, cut at the first `&`; it may be empty, and never holds `&`. */
  lemma {:induction false} FragmentKey(u: ParsedUrl)
    requires QueryGivesNothing(u) && Contains(u.fragment, Key)
    ensures var id := ExtractRoomId(Success(u));
      && id == BeforeFirst(BeforeFirst(AfterFirst(u.fragment, Key), Key), "&")
      && !Contains(id, "&")
  {
    SplitPieces(u.fragment, Key);
    var between := Split(u.fragment, Key)[1];
    SplitPieces(between, "&");
    assert u.fragment != "";
  }

  /** Otherwise a fragment without `=` gives itself minus one leading `/`, when that leaves
      something. */
  lemma FragmentPath(u: ParsedUrl)
    requires QueryGivesNothing(u) && u.fragment != "" && !Contains(u.fragment, "=")
    ensures !Contains(u.fragment, Key)
    ensures var rest := TrimPrefix(u.fragment, "/");
      ExtractRoomId(Success(u)) == if rest != "" then rest else ""
  {
    KeyHasEquals(u.fragment);
  }

  /** Every other link gives "". */
  lemma NothingFound(u: ParsedUrl)
    requires QueryGivesNothing(u)
    requires u.fragment == "" || (!Contains(u.fragment, Key) && (Contains(u.fragment, "=") || TrimPrefix(u.fragment, "/") == ""))
    ensures ExtractRoomId(Success(u)) == ""
  {
  }
}

=== FILE: sendpoint.dfy ===
/** frontend/src/core/sendPoint.ts: broadcast one point as a `draw_point` envelope. */
module SendPoint {
  import opened Wrappers
  import opened Types
  import opened Transport

  /** The envelope `{type: "draw_point", data: point}`. */
  function PointEnvelope(p: Point): Outgoing {
    Outgoing(DrawPoint, PointBody(p))
  }

  /** How a receiver reads a point back out of an envelope. */
  function PointOf(e: Outgoing): Option<Point> {
    if e.tag == DrawPoint && e.data.PointBody? then Some(e.data.point) else None
  }

  /** The envelope always carries the `draw_point` tag and gives back exactly the point sent. */
  lemma PointEnvelopeRoundTrip(p: Point)
    ensures TagName(PointEnvelope(p).tag) == "draw_point"
    ensures PointOf(PointEnvelope(p)) == Some(p)
  {
  }

  /** `sendPoint(socketRef, point)`: one envelope when there is a socket, none otherwise. */
  method SendPoint(socket: Socket?, p: Point)
    modifies socket
    ensures socket != null ==> socket.outbox == old(socket.outbox) + [PointEnvelope(p)]
  {
    if socket != null {
      socket.Send(PointEnvelope(p));
    }
  }
}

=== FILE: seqs.dfy ===
/** Facts about sequences that the rest of the model uses at several element types. */
module Seqs {

  /** Concatenation regrouped: the middle piece moves from "to come" to "done". Stated for
      any element type, so that using it does not unfold what the pieces are made of. */
  lemma Regroup<T>(made: seq<T>, step: seq<T>, later: seq<T>, all: seq<T>)
    requires made + (step + later) == all
    ensures (made + step) + later == all
  {
  }

  /** Concatenation is associative; used to fold a call just made into what came before. */
  lemma Assoc<T>(a: seq<T>, b: seq<T>, c: seq<T>)
    ensures (a + b) + c == a + (b + c)
  {
  }
}

=== FILE: text.dfy ===
/** The string library routines the core relies on, written out: whitespace trimming as
    JavaScript's `String.prototype.trim` and Go's `strings.TrimSpace` perform it, and Go's
    `strings.Split`, `strings.Contains` and `strings.TrimPrefix`. */
module Text {
  import opened Wrappers

  /** The characters with the Unicode White_Space property. */
  predicate IsUnicodeWhiteSpace(c: char) {
    ('\t' <= c <= '\r') || c == ' ' || c == '\U{85}' || c == '\U{A0}' || c == '\U{1680}'
    || ('\U{2000}' <= c <= '\U{200A}') || c == '\U{2028}' || c == '\U{2029}'
    || c == '\U{202F}' || c == '\U{205F}' || c == '\U{3000}'
  }

  /** Go's `unicode.IsSpace`, the test `strings.TrimSpace` strips by. */
  predicate IsGoSpace(c: char) {
    IsUnicodeWhiteSpace(c)
  }

  /** JavaScript's WhiteSpace and LineTerminator characters: the Unicode white space
      without NEL (U+0085), plus the byte-order mark U+FEFF. */
  predicate IsJsSpace(c: char) {
    (IsUnicodeWhiteSpace(c) && c != '\U{85}') || c == '\U{FEFF}'
  }

  /** The length of the run of `ws` characters that opens `s`. */
  function LeadingSpace(s: string, ws: char -> bool): (n: nat)
    ensures n <= |s|
    ensures forall k :: 0 <= k < n ==> ws(s[k])
    ensures n == |s| || !ws(s[n])
  {
    if s == [] || !ws(s[0]) then 0 else 1 + LeadingSpace(s[1..], ws)
  }

  /** The index at which the run of `ws` characters that closes `s` begins. */
  function TrailingStart(s: string, ws: char -> bool): (n: nat)
    ensures n <= |s|
    ensures forall k :: n <= k < |s| ==> ws(s[k])
    ensures n == 0 || !ws(s[n - 1])
  {
    if s == [] || !ws(s[|s| - 1]) then |s| else TrailingStart(s[..|s| - 1], ws)
  }

  /** `s` without its leading and trailing `ws` characters. */
  function TrimWith(s: string, ws: char -> bool): (r: string)
    ensures LeadingSpace(s, ws) + |r| <= |s|
    ensures r == s[LeadingSpace(s, ws)..LeadingSpace(s, ws) + |r|]
    ensures forall k :: 0 <= k < LeadingSpace(s, ws) ==> ws(s[k])
    ensures forall k :: LeadingSpace(s, ws) + |r| <= k < |s| ==> ws(s[k])
    ensures r == [] || (!ws(r[0]) && !ws(r[|r| - 1]))
  {
    var t := s[LeadingSpace(s, ws)..];
    t[..TrailingStart(t, ws)]
  }

  /** JavaScript's `s.trim()`: nothing is left exactly when `s` is all white space, and
      what is left neither starts nor ends with white space. */
  function JsTrim(s: string): (r: string)
    ensures r == [] <==> forall k :: 0 <= k < |s| ==> IsJsSpace(s[k])
    ensures r != [] ==> !IsJsSpace(r[0]) && !IsJsSpace(r[|r| - 1])
  {
    TrimEmptyIff(s, IsJsSpace);
    TrimWith(s, IsJsSpace)
  }

  /** Go's `strings.TrimSpace(s)`: no longer than `s`, and what is left neither starts nor
      ends with white space. */
  function GoTrimSpace(s: string): (r: string)
    ensures |r| <= |s|
    ensures r != [] ==> !IsGoSpace(r[0]) && !IsGoSpace(r[|r| - 1])
  {
    TrimWith(s, IsGoSpace)
  }

  /** Trimming twice is trimming once. */
  lemma TrimIdempotent(s: string, ws: char -> bool)
    ensures TrimWith(TrimWith(s, ws), ws) == TrimWith(s, ws)
  {
    var r := TrimWith(s, ws);
    if r != [] {
      assert LeadingSpace(r, ws) == 0;
      var t := r[LeadingSpace(r, ws)..];
      assert t == r;
      assert TrailingStart(t, ws) == |r|;
    }
  }

  /** Trimming leaves nothing exactly when every character is white space. */
  lemma TrimEmptyIff(s: string, ws: char -> bool)
    ensures TrimWith(s, ws) == [] <==> forall k :: 0 <= k < |s| ==> ws(s[k])
  {
    var r := TrimWith(s, ws);
    if r == [] {
      forall k | 0 <= k < |s| ensures ws(s[k]) {
      }
    } else {
      assert !ws(r[0]);
      assert r[0] == s[LeadingSpace(s, ws)];
    }
  }

  /** `sep` occurs in `s` at index `i`. */
  predicate OccursAt(s: string, sep: string, i: nat) {
    i + |sep| <= |s| && s[i..i + |sep|] == sep
  }

  /** The first occurrence of `sep` in `s` at or after `from`. */
  function IndexFrom(s: string, sep: string, from: nat): (r: Option<nat>)
    ensures r.Some? ==> from <= r.value && OccursAt(s, sep, r.value)
    ensures r.Some? ==> forall j :: from <= j < r.value ==> !OccursAt(s, sep, j)
    ensures r.None? ==> forall j :: from <= j ==> !OccursAt(s, sep, j)
    decreases |s| + 1 - from
  {
    if from + |sep| > |s| then None
    else if OccursAt(s, sep, from) then Some(from)
    else IndexFrom(s, sep, from + 1)
  }

  /** Go's `strings.Index(s, sep)`, with `None` for -1. */
  function IndexOf(s: string, sep: string): Option<nat> {
    IndexFrom(s, sep, 0)
  }

  /** Go's `strings.Contains(s, sub)`. */
  predicate Contains(s: string, sub: string) {
    IndexOf(s, sub).Some?
  }

  /** `Contains` agrees with "occurs at some index". */
  lemma ContainsIff(s: string, sub: string, i: nat)
    requires OccursAt(s, sub, i)
    ensures Contains(s, sub)
  {
  }

  /** Go's `strings.TrimPrefix(s, prefix)`. */
  function TrimPrefix(s: string, prefix: string): (r: string)
    ensures prefix <= s ==> s == prefix + r
    ensures !(prefix <= s) ==> r == s
  {
    if prefix <= s then s[|prefix|..] else s
  }

  /** A prefix of `s` that ends before the first occurrence of `sep` does not contain `sep`. */
  lemma NoSepBeforeFirst(s: string, sep: string, i: nat)
    requires |sep| > 0 && i <= |s|
    requires forall j :: 0 <= j < i ==> !OccursAt(s, sep, j)
    ensures !Contains(s[..i], sep)
  {
    var t := s[..i];
    if Contains(t, sep) {
      var j := IndexOf(t, sep).value;
      assert t[j..j + |sep|] == s[j..j + |sep|];
      assert OccursAt(s, sep, j);
    }
  }

  /** Go's `strings.Split(s, sep)` for a non-empty separator: the pieces between
      successive non-overlapping occurrences of `sep`, scanning from the left. */
  function Split(s: string, sep: string): (parts: seq<string>)
    requires |sep| > 0
    ensures |parts| >= 1
    decreases |s|
  {
    match IndexOf(s, sep)
    case None => [s]
    case Some(i) => [s[..i]] + Split(s[i + |sep|..], sep)
  }

  /** No piece holds the separator, and there is more than one piece exactly when `s` holds
      the separator. */
  lemma {:induction false} SplitPiecesClean(s: string, sep: string)
    requires |sep| > 0
    ensures forall k :: 0 <= k < |Split(s, sep)| ==> !Contains(Split(s, sep)[k], sep)
    ensures |Split(s, sep)| == 1 <==> !Contains(s, sep)
    decreases |s|
  {
    match IndexOf(s, sep)
    case None =>
    case Some(i) =>
      var rest := s[i + |sep|..];
      SplitPiecesClean(rest, sep);
      NoSepBeforeFirst(s, sep, i);
      var parts := Split(s, sep);
      assert parts == [s[..i]] + Split(rest, sep);
      assert forall k :: 1 <= k < |parts| ==> parts[k] == Split(rest, sep)[k - 1];
  }

  /** Go's `strings.Join(parts, sep)`. */
  function Join(parts: seq<string>, sep: string): string {
    if |parts| == 0 then ""
    else if |parts| == 1 then parts[0]
    else parts[0] + sep + Join(parts[1..], sep)
  }

  /** Joining the pieces with the separator gives back the original string. */
  lemma {:induction false} JoinSplit(s: string, sep: string)
    requires |sep| > 0
    ensures Join(Split(s, sep), sep) == s
    decreases |s|
  {
    match IndexOf(s, sep)
    case None =>
    case Some(i) =>
      var rest := s[i + |sep|..];
      var tail := Split(rest, sep);
      var parts := [s[..i]] + tail;
      assert Split(s, sep) == parts;
      assert parts[0] == s[..i] && parts[1..] == tail;
      JoinSplit(rest, sep);
      assert Join(parts, sep) == s[..i] + sep + rest;
      assert s[i..i + |sep|] == sep;
      assert s == s[..i] + s[i..i + |sep|] + rest;
  }

  /** The text of `s` before the first occurrence of `sep` (all of `s` when there is none). */
  function BeforeFirst(s: string, sep: string): string {
    match IndexOf(s, sep)
    case None => s
    case Some(i) => s[..i]
  }

  /** The text of `s` after the first occurrence of `sep`. */
  function AfterFirst(s: string, sep: string): string
    requires Contains(s, sep)
  {
    s[IndexOf(s, sep).value + |sep|..]
  }

  /** The first two pieces of `Split`: the text before the first separator, and the text
      between the first separator and the next one (or the end). */
  lemma SplitPieces(s: string, sep: string)
    requires |sep| > 0
    ensures Split(s, sep)[0] == BeforeFirst(s, sep)
    ensures Contains(s, sep) ==> |Split(s, sep)| >= 2 && Split(s, sep)[1] == BeforeFirst(AfterFirst(s, sep), sep)
  {
    match IndexOf(s, sep)
    case None =>
    case Some(i) =>
      var rest := s[i + |sep|..];
      assert Split(rest, sep)[0] == BeforeFirst(rest, sep) by {
        match IndexOf(rest, sep)
        case None =>
        case Some(_) =>
      }
  }
}

=== FILE: transport.dfy ===
/** The client's end of the room's WebSocket, as far as the core uses it: every `send` of
    an envelope is recorded, in order, in the outbox. Serialisation to JSON is left out. */
module Transport {
  import opened Types

  class Socket {
    var outbox: seq<Outgoing>

    constructor ()
      ensures outbox == []
    {
      outbox := [];
    }

    /** `socket.send(JSON.stringify(e))`. */
    method Send(e: Outgoing)
      modifies this
      ensures outbox == old(outbox) + [e]
    {
      outbox := outbox + [e];
    }
  }
}

=== FILE: types.dfy ===
/** The data model of frontend/src/types/types.ts: points, strokes, players, the closed set
    of envelope tags, the normalised chat/guess messages, and the two envelope shapes the
    client exchanges with the server. */
module Types {
  import opened Wrappers

  /** `Point.type`. */
  datatype PointKind = Start | Move | End

  /** One sampled pointer position; every point carries a colour and a size. */
  datatype Point = Point(kind: PointKind, x: real, y: real, pointColor: string, pointSize: real)

  /** A completed gesture: a colour, a width and the ordered points it passes through. */
  datatype Stroke = Stroke(strokeColor: string, strokeWidth: real, paths: seq<Point>)

  datatype Player = Player(id: string, name: string, points: int)

  /** The twelve values of `WSMessage.type`; `Message` is the legacy wrapper. */
  datatype Tag =
    | DrawPoint | StrokeTag | Clear | Undo | UserJoined | UserLeft | GameState
    | Guess | ChatMsg | CorrectGuess | CloseGuess | Message

  /** The wire spelling of a tag. */
  function TagName(t: Tag): string {
    match t
    case DrawPoint => "draw_point"
    case StrokeTag => "stroke"
    case Clear => "clear"
    case Undo => "undo"
    case UserJoined => "user_joined"
    case UserLeft => "user_left"
    case GameState => "game_state"
    case Guess => "guess"
    case ChatMsg => "chat_msg"
    case CorrectGuess => "correct_guess"
    case CloseGuess => "close_guess"
    case Message => "message"
  }

  /** The tag a wire string spells, if it spells one of the twelve. */
  function ParseTag(s: string): (r: Option<Tag>)
    ensures r.Some? ==> TagName(r.value) == s
  {
    if s == "draw_point" then Some(DrawPoint)
    else if s == "stroke" then Some(StrokeTag)
    else if s == "clear" then Some(Clear)
    else if s == "undo" then Some(Undo)
    else if s == "user_joined" then Some(UserJoined)
    else if s == "user_left" then Some(UserLeft)
    else if s == "game_state" then Some(GameState)
    else if s == "guess" then Some(Guess)
    else if s == "chat_msg" then Some(ChatMsg)
    else if s == "correct_guess" then Some(CorrectGuess)
    else if s == "close_guess" then Some(CloseGuess)
    else if s == "message" then Some(Message)
    else None
  }

  /** Every tag's spelling parses back to it, so the twelve spellings are distinct. */
  lemma TagRoundTrip(t: Tag)
    ensures ParseTag(TagName(t)) == Some(t)
  {
  }

  /** The set of tags is closed: a string is a tag exactly when it is one of the twelve spellings. */
  lemma TagsClosed(s: string)
    ensures ParseTag(s).Some? <==> s in {"draw_point", "stroke", "clear", "undo", "user_joined",
      "user_left", "game_state", "guess", "chat_msg", "correct_guess", "close_guess", "message"}
  {
  }

  /** The normalised chat/guess message. The guess variants keep the payload's fields as
      found on the wire (absent fields stay absent); `Conforms` says when a value has the
      shape the TypeScript interfaces declare. The chat variant's `text` is the interface's
      `message` field (Dafny requires fields shared between variants to share a type). */
  datatype UiMessage =
    | ChatMessage(sender: Player, text: string)
    | CorrectGuessMessage(playerId: Option<string>, playerName: Option<string>, message: Option<string>)
    | CloseGuessMessage(playerId: Option<string>, playerName: Option<string>, editDistance: int, message: Option<string>)

  /** The `type` field of a UiMessage. */
  function UiTag(u: UiMessage): Tag {
    match u
    case ChatMessage(_, _) => ChatMsg
    case CorrectGuessMessage(_, _, _) => CorrectGuess
    case CloseGuessMessage(_, _, _, _) => CloseGuess
  }

  /** The declared shapes: every field required except the close-guess `message`. */
  predicate Conforms(u: UiMessage) {
    match u
    case ChatMessage(_, _) => true
    case CorrectGuessMessage(id, name, msg) => id.Some? && name.Some? && msg.Some?
    case CloseGuessMessage(id, name, _, _) => id.Some? && name.Some?
  }

  /** A UiMessage is one of the three chat/guess tags and no other. */
  lemma UiTagIsChatOrGuess(u: UiMessage)
    ensures UiTag(u) in {ChatMsg, CorrectGuess, CloseGuess}
  {
  }

  /** The inbound payload (`data: any`) as far as the message normaliser reads it; each
      field is absent or present. `kind` and `inner` are the legacy wrapper's `type` and `data`. */
  datatype Payload = Payload(
    kind: Option<string>,
    inner: Option<Payload>,
    sender: Option<Player>,
    playerId: Option<string>,
    playerName: Option<string>,
    message: Option<string>,
    editDistance: Option<int>)

  /** An inbound envelope handed to the normaliser: any tag string, and an object payload. */
  datatype WSMessage = WSMessage(tag: string, data: Payload)

  /** The payloads the client sends. */
  datatype Body = PointBody(point: Point) | StrokeBody(stroke: Stroke) | EmptyBody | GuessBody(guess: string)

  /** An outbound envelope `{type, data}`. */
  datatype Outgoing = Outgoing(tag: Tag, data: Body)
}

=== FILE: wordbank.dfy ===
/** backend/pkg/utils/getRandomWord.go: the word bank. The file is read once, split into
    lines, each line trimmed of white space and the blank ones dropped; a word is then
    picked at random from what is left. The file's contents (or the error reading it) and
    the random pick are inputs. */
module WordBank {
  import opened Wrappers
  import opened Text
  import opened Seqs

  const EmptyAfterParsing: string := "word bank empty after parsing"

  /** What one line contributes: its trimmed text, unless the line is blank. What it
      contributes is a word: non-empty, with nothing left to trim. */
  function Kept(line: string): (r: seq<string>)
    ensures |r| <= 1
    ensures r != [] ==> r[0] != "" && GoTrimSpace(r[0]) == r[0]
  {
    TrimIdempotent(line, IsGoSpace);
    if GoTrimSpace(line) != "" then [GoTrimSpace(line)] else []
  }

  /** The words of a list of lines: each line trimmed as `strings.TrimSpace` does, the empty
      results dropped, the rest kept in order. */
  function KeepWords(lines: seq<string>): (words: seq<string>)
    ensures |words| <= |lines|
  {
    if lines == [] then [] else KeepWords(lines[..|lines| - 1]) + Kept(lines[|lines| - 1])
  }

  /** Every kept word is non-empty and has no white space left to trim. */
  lemma {:induction false} KeepWordsAreWords(lines: seq<string>)
    ensures forall k :: 0 <= k < |KeepWords(lines)| ==>
      KeepWords(lines)[k] != "" && GoTrimSpace(KeepWords(lines)[k]) == KeepWords(lines)[k]
  {
    if lines != [] {
      var init, last := lines[..|lines| - 1], lines[|lines| - 1];
      KeepWordsAreWords(init);
      TrimIdempotent(last, IsGoSpace);
      assert KeepWords(lines) == KeepWords(init) + Kept(last);
      forall k | 0 <= k < |KeepWords(lines)|
        ensures KeepWords(lines)[k] != "" && GoTrimSpace(KeepWords(lines)[k]) == KeepWords(lines)[k]
      {
        if k >= |KeepWords(init)| {
          assert KeepWords(lines)[k] == GoTrimSpace(last);
        } else {
          assert KeepWords(lines)[k] == KeepWords(init)[k];
        }
      }
    }
  }

  /** One more line: it contributes `Kept(line)` after the words of the lines before it. */
  lemma KeepWordsSnoc(lines: seq<string>, line: string)
    ensures KeepWords(lines + [line]) == KeepWords(lines) + Kept(line)
  {
    assert (lines + [line])[..|lines|] == lines;
  }

  /** The lines of a file are kept or dropped independently, in file order. */
  lemma {:induction false} KeepWordsAppend(a: seq<string>, b: seq<string>)
    ensures KeepWords(a + b) == KeepWords(a) + KeepWords(b)
    decreases |b|
  {
    if b == [] {
      assert a + b == a;
    } else {
      var init, last := b[..|b| - 1], b[|b| - 1];
      assert b == init + [last];
      Regroup(a, init, [last], a + b);
      KeepWordsSnoc(a + init, last);
      KeepWordsSnoc(init, last);
      KeepWordsAppend(a, init);
      Regroup(KeepWords(a), KeepWords(init), Kept(last), KeepWords(a) + KeepWords(b));
    }
  }

  /** Nothing is kept exactly when every line is blank. */
  lemma {:induction false} KeepWordsEmptyIff(lines: seq<string>)
    ensures KeepWords(lines) == [] <==> forall k :: 0 <= k < |lines| ==> GoTrimSpace(lines[k]) == ""
  {
    if lines != [] {
      var init := lines[..|lines| - 1];
      KeepWordsEmptyIff(init);
      assert forall k :: 0 <= k < |init| ==> init[k] == lines[k];
    }
  }

  /** The words of a file: its `"\n"`-separated lines, filtered. Each is a non-empty
      trimmed word. */
  function ParseWords(data: string): (words: seq<string>)
    ensures forall k :: 0 <= k < |words| ==> words[k] != "" && GoTrimSpace(words[k]) == words[k]
  {
    KeepWordsAreWords(Split(data, "\n"));
    KeepWords(Split(data, "\n"))
  }

  /** The loop of `loadWords` that fills `tmp`. */
  method CollectWords(lines: seq<string>) returns (tmp: seq<string>)
    ensures tmp == KeepWords(lines)
  {
    tmp := [];
    var i := 0;
    while i < |lines|
      invariant 0 <= i <= |lines|
      invariant tmp == KeepWords(lines[..i])
    {
      var l := GoTrimSpace(lines[i]);
      assert lines[..i + 1][..i] == lines[..i];
      if l != "" {
        tmp := tmp + [l];
      }
      i := i + 1;
    }
    assert lines[..i] == lines;
  }

  /** The package's globals: the once-only loader's flag, its error and the word list. */
  class Bank {
    var loaded: bool
    var loadErr: Option<string>
    var wordList: seq<string>

    /** Only words are stored, and a load that reported no error stored at least one. */
    ghost predicate Valid()
      reads this
    {
      && (forall k :: 0 <= k < |wordList| ==> wordList[k] != "" && GoTrimSpace(wordList[k]) == wordList[k])
      && (!loaded ==> loadErr.None? && wordList == [])
      && (loaded && loadErr.None? ==> wordList != [])
    }

    constructor ()
      ensures Valid() && !loaded && loadErr.None? && wordList == []
    {
      loaded := false;
      loadErr := None;
      wordList := [];
    }

    /** `loadWords` on the result of reading the file. `wordList` is assigned only when at
        least one word was found. */
    method LoadWords(file: Result<string, string>) returns (err: Option<string>)
      requires Valid()
      modifies this
      ensures loaded == old(loaded) && loadErr == old(loadErr)
      ensures match file
        case Failure(e) => err == Some(e) && wordList == old(wordList)
        case Success(data) =>
          if ParseWords(data) == [] then err == Some(EmptyAfterParsing) && wordList == old(wordList)
          else err.None? && wordList == ParseWords(data)
    {
      match file
      case Failure(e) =>
        return Some(e);
      case Success(data) =>
        var lines := Split(data, "\n");
        var tmp := CollectWords(lines);
        if |tmp| == 0 {
          return Some(EmptyAfterParsing);
        }
        wordList := tmp;
        return None;
    }

    /** `GetRandomWord`: load on the first call only, then either report the load error or
        return the word at the random index `pick % len(wordList)` (`rand.Intn`). The
        `difficulty` is not used. The "no words in wordlist" branch of the source cannot be
        taken: a load without error always stored a word. */
    method GetRandomWord(difficulty: int, file: Result<string, string>, pick: nat) returns (word: string, err: Option<string>)
      requires Valid()
      modifies this
      ensures Valid() && loaded
      ensures old(loaded) ==> loadErr == old(loadErr) && wordList == old(wordList)
      ensures !old(loaded) && file.Failure? ==> loadErr == Some(file.error)
      ensures !old(loaded) && file.Success? ==>
        if ParseWords(file.value) == [] then loadErr == Some(EmptyAfterParsing)
        else loadErr.None? && wordList == ParseWords(file.value)
      ensures err == loadErr
      ensures err.Some? ==> word == ""
      ensures err.None? ==> |wordList| > 0 && word == wordList[pick % |wordList|]
      ensures err.None? ==> word != "" && GoTrimSpace(word) == word
    {
      if !loaded {
        var e := LoadWords(file);
        loaded, loadErr := true, e;
      }
      if loadErr.Some? {
        return "", loadErr;
      }
      assert |wordList| > 0;
      if !old(loaded) {
        KeepWordsAreWords(Split(file.value, "\n"));
      }
      var idx := pick % |wordList|;
      return wordList[idx], None;
    }
  }
}

=== FILE: wrappers.dfy ===
/** Option and Result, used wherever a field of a dynamically typed payload may be absent
    or an operation of the source may fail. */
module Wrappers {

  datatype Option<+T> = None | Some(value: T) {
    /** The value, or `default` when absent: the source's `x ?? default`. */
    function GetOr(default: T): T {
      match this
      case Some(v) => v
      case None => default
    }
  }

  datatype Result<+R, +E> = Success(value: R) | Failure(error: E)
}
